=== FILE: README.md ===
# configdb in Dafny

A model of the core of configdb, a Go library. It keeps a hierarchical
configuration tree merged from several storages, writes changes back to the
first storage, and tells registered listeners which paths changed. The model
covers these parts:

- **The tree engine** (`tree/node.go`):
  - a node is a map from keys to values;
  - a value is a nested node, a list, a bool, a string, a number (kept as its
    exact decimal text) or null;
  - `CreatePath`, `Set`, `Get`, `Merge` and `Compare` are pure functions over
    immutable values.
  - Files: `tree_node.dfy` and `tree_compare.dfy`.
- **Path normalisation** (`tree/path.go`):
  - `Clean` is the two regular-expression passes of the source, written out
    character by character;
  - `NewPath` joins the elements with the separator and cleans the result.
  - File: `tree_path.dfy`.
- **The older named tree** (`tree/main.go`): a struct node with a name, an
  optional value and ordered children, with `SplitBySeparators` and
  `JoinBySeparators`. File: `named_tree.dfy`.
- **The error kinds** of the tree package and their messages. File:
  `tree_error.dfy`.
- **The orchestration** in `configdb.go`, as two sequential state machines. File:
  `configdb.dfy`.
  - The loader owns the stores. It loads the merged tree, handles `Set` and
    `Reset` against the first store, and hands reloaded trees over through a
    one-slot buffer.
  - The holder owns the current tree and the listener registry. It swaps in
    handed-over trees and computes the calls each listener receives.
- **Storages**: an abstract store (`storage.dfy`) and the in-memory dummy
  storage (`dummy_storage.dfy`).
- **The test vectors** of the repository's tests: `tree_path_examples.dfy`,
  `tree_node_examples.dfy`, `named_tree_examples.dfy`, and `tree_vectors.dfy`
  for the shared test trees A, B and AB of the tree package.

Paths in the tree engine are sequences of key segments. The textual path
functions `PathSplit`, `PathJoin` and `PathContains`, and `Node.Remove`, are
used by the source but not defined in it. They are parameters here:

- `split: string -> Path`;
- `contains: (Path, string) -> bool`;
- `remove: (Node, string) -> Result<Node, TreeError>`.

`compare` starts with the root prefix `""` in `tree/node.go:131`. The tests in
`tree/node_test.go:124-137` expect every path to start with a period. To stay
out of that disagreement, the model reports paths as segment sequences and
makes the prefix a parameter of `CompareAt`.

The three lists of a comparison are sets, because the tests compare them
regardless of order. The source appends to them while iterating over Go maps,
so their order is not defined.

## Model

| member | source | states |
|---|---|---|
| TreeErrors.UnexpectedTypeFull | tree/error.go:47-50 | with a location and an expected type the message is "Element at P is of type G instead of E" |
| TreeErrors.UnexpectedTypeNoExpected | tree/error.go:47-51 | with a location and no expected type the message is "Element at P is of unexpected type G" |
| TreeErrors.UnexpectedTypeNoPath | tree/error.go:53-54 | without a location, with an expected type, the message is "Element is of type G instead of E" |
| TreeErrors.UnexpectedTypeBare | tree/error.go:56 | with neither, the message is "Element is of unexpected type G" |
| TreeErrors.UnexpectedTypeNamesPath | tree/error.go:46-57 | the message starts with "Element at " exactly when a location is set, and then names that location |
| TreeErrors.UnexpectedTypeNamesTypes | tree/error.go:46-57 | the message ends with " instead of E" when an expected type is set, and with "unexpected type G" otherwise |
| TreeErrors.ElementNotFoundInjective | tree/error.go:17-19 | two not-found messages are equal only for the same location: the path can be read back |
| TreeErrors.NotFoundDiffersFromInsideValue | tree/error.go:17-28 | a not-found message never equals a pointing-inside-value message, whatever the two paths |
| TreeErrors.PathInvalidNamesPathAndReason | tree/error.go:36-38 | an invalid-path message starts with "Path P is invalid: " and ends with ": R" |
| TreePath.LeadingPeriods | tree/path.go:16 | the leading run `^\.+`: a prefix made only of periods, not followed by another period |
| TreePath.StripTailFacts | tree/path.go:16 | the first pass (after the leading run) deletes every CR and LF, only deletes, and keeps every other character in order |
| TreePath.StripTailNoBreaks | tree/path.go:16 | without line breaks the first pass empties the text exactly when it is all periods, keeps its first character, leaves no trailing period, and changes nothing when there is none |
| TreePath.StripTailTrailingPeriods | tree/path.go:16 | a trailing run of periods after a text that does not end in one is exactly what `\.+$` deletes |
| TreePath.StripTailSkipsBreak | tree/path.go:16 | a line break before a character that survives is deleted and changes nothing else |
| TreePath.RemovePassFacts | tree/path.go:37 | the whole first pass leaves no line break, only deletes, and keeps every character that is not a period or a break |
| TreePath.RemovePassEnds | tree/path.go:37 | without line breaks, the first pass leaves no period at either end |
| TreePath.CollapseNoDouble | tree/path.go:17 | after the second pass no two periods are adjacent, and the first character stays |
| TreePath.CollapseKeepsLast | tree/path.go:38 | the second pass keeps the last character |
| TreePath.CollapseOnlyDeletes | tree/path.go:38 | the second pass only deletes periods and adds no line break |
| TreePath.CollapseDoublePeriod | tree/path.go:17 | a run of two periods collapses like a single period |
| TreePath.CollapseFixesNoDouble | tree/path.go:17 | a text without two adjacent periods is left alone by the second pass |
| TreePath.CleanHasNoBreaks | tree/path.go:35-40 | the output of `Clean` never contains CR or LF |
| TreePath.CleanOnlyDeletes | tree/path.go:35-40 | `Clean` deletes characters and nothing else; every character other than a period, CR or LF survives, in order |
| TreePath.CleanIsClean | tree/path.go:35-40 | on a text without line breaks `Clean` yields a normalised path: no period at either end, no two adjacent |
| TreePath.CleanFixesCleanPaths | tree/path.go:35-40 | a normalised path is returned unchanged |
| TreePath.CleanIdempotent | tree/path.go:35-40 | on a text without line breaks, cleaning twice is cleaning once |
| TreePath.NewPathIsClean | tree/path.go:25-32 | elements without line breaks build a normalised path, and building a path from that path alone returns it unchanged |
| TreePath.CleanNotIdempotentWithBreaks | tree/path.go:16 | with a line break, idempotence fails: "\n.a" cleans to ".a", which cleans to "a" |
| TreePathExamples.CleanKeepsCleanPath | tree/path_test.go:43 | `Clean("foo.bar") = "foo.bar"` |
| TreePathExamples.CleanStripsOuterPeriods | tree/path_test.go:44 | `Clean(".foo.bar.") = "foo.bar"` |
| TreePathExamples.CleanDropsBreaks | tree/path_test.go:45 | `Clean(".foo.\n\r.bar.") = "foo.bar"` |
| TreePathExamples.NewPathJoinsPlainElements | tree/path_test.go:22 | `NewPath("foo", "bar") = "foo.bar"` |
| TreePathExamples.NewPathMergesOpeningPeriod | tree/path_test.go:23 | `NewPath("foo", ".bar") = "foo.bar"` |
| TreePathExamples.NewPathMergesClosingPeriod | tree/path_test.go:24 | `NewPath("foo.", "bar") = "foo.bar"` |
| TreePathExamples.NewPathStripsOuterPeriods | tree/path_test.go:25 | `NewPath(".foo.", ".bar.") = "foo.bar"` |
| TreePathExamples.NewPathKeepsInnerPeriods | tree/path_test.go:26 | `NewPath("foo.", "foo.baz", "bar") = "foo.foo.baz.bar"` |
| TreeNode.Get | tree/node.go:72-89 | `Get` succeeds exactly when the walk reaches a value and returns it; a missing key gives `ElementNotFound`, entering a non-node gives `PathInsideValue` |
| TreeNode.GetEmptyPath | tree/node.go:73-76 | an empty segment list yields the whole tree |
| TreeNode.GetMissingSegment | tree/node.go:82-85 | a segment that the node reached so far lacks gives `ElementNotFound` for the path |
| TreeNode.GetThroughValue | tree/node.go:78-81 | having to descend into a value that is not a node gives `PathInsideValue` for the path |
| TreeNode.CreatePath | tree/node.go:26-49 | after `CreatePath` the path leads to a node, which is the one returned; it is the node already there, or a fresh empty node |
| TreeNode.CreatePathMakesNodes | tree/node.go:30-46 | every prefix of the path is a node afterwards |
| TreeNode.CreatePathKeepsOthers | tree/node.go:30-46 | every path that is not a prefix of the created path keeps its value |
| TreeNode.CreatePathAddsOnlyPath | tree/node.go:30-46 | the only new paths are prefixes of the created path |
| TreeNode.CreatePathIdempotent | tree/node.go:23-49 | a second call changes nothing and returns the same node |
| TreeNode.Set | tree/node.go:52-69 | a conversion error is returned as is; otherwise the value is found at the path afterwards |
| TreeNode.PutThenGet | tree/node.go:60-66 | after storing `v` at a path, reading the path yields `v` |
| TreeNode.PutReplacesSubtree | tree/node.go:66 | the previous subtree is replaced wholesale: below the path only the new value is visible |
| TreeNode.PutKeepsOthers | tree/node.go:60-66 | paths neither above nor below the written one keep their values |
| TreeNode.PutAddsOnlyPath | tree/node.go:60-66 | storing adds no path off the written one: every path reachable afterwards was reachable before, lies on the way to the written path, or lies below it |
| TreeNode.PutIsCreatePathThenAssign | tree/node.go:60-66 | storing is `CreatePath` of the path without its last segment, then one assignment in the node it returns |
| TreeNode.Merge | tree/node.go:196-216 | the merged node has exactly the keys of both inputs |
| TreeNode.MergeKeepsNew | tree/node.go:197-215 | every path of the new tree survives the merge: its value where it is not a node, a node where it is |
| TreeNode.MergeKeepsOld | tree/node.go:192-215 | a path of the old tree that the new tree lacks keeps its old value |
| TreeNode.MergeNewValueHides | tree/node.go:206-209 | a value of the new tree replaces whatever the old tree had below it, lists included |
| TreeNode.MergeOnlyFromInputs | tree/node.go:196-216 | every path of the merge comes from one of the inputs |
| TreeNode.MergeEmptyRight | tree/node_test.go:316 | `A.Merge({})` is A |
| TreeNode.MergeEmptyLeft | tree/node_test.go:315 | `{}.Merge(A)` is A |
| TreeNode.MergeIdempotent | tree/node.go:196-216 | merging a tree into itself changes nothing |
| TreeNode.MergeAbsorbs | tree/node.go:196-216 | merging the same new tree a second time changes nothing |
| TreeCompare.PathsUnderExtends | tree/node.go:145 | every path reported below a node starts with the prefix, and is longer |
| TreeCompare.PathsUnderSpec | tree/node.go:163-167 | the paths listed for a vanished or appeared node are exactly the paths that lead somewhere in it |
| TreeCompare.ChangedExtends | tree/node.go:145 | every modified path starts with the prefix |
| TreeCompare.ChangedSpec | tree/node.go:137-160 | a path is reported modified exactly when both trees hold it, not both as nodes, with different values |
| TreeCompare.AppearedExtends | tree/node.go:145 | every added (or removed) path starts with the prefix |
| TreeCompare.AppearedSound | tree/node.go:146-182 | every added path is held by the new tree and not by the old one |
| TreeCompare.AppearedComplete | tree/node.go:146-182 | every path held only by the new tree is reported added |
| TreeCompare.AppearedSpec | tree/node.go:146-182 | added paths are exactly those only the new tree holds; with the arguments swapped, removed paths are those only the old tree holds |
| TreeCompare.CompareSpec | tree/node.go:130-185 | path by path: modified, added and removed mean both-differ, only-new and only-old |
| TreeCompare.CompareSelf | tree/node.go:157-160 | a tree compared with itself yields three empty lists |
| TreeCompare.CompareDisjoint | tree/node.go:134-185 | no path is reported in two of the lists |
| TreeCompare.CompareSwap | tree/node.go:134-185 | comparing the other way round swaps added and removed and keeps modified |
| TreeCompare.CompareWithEmpty | tree/node_test.go:129-137 | comparing with an empty tree reports every path of the other as removed (or added) and nothing else |
| TreeCompare.CompareListIsLeaf | tree/node.go:129 | a change inside a list reports the list's path as modified and nothing below it |
| TreeCompare.CompareNodeReplaced | tree/node.go:146-150 | a node overwritten by a value: its path is modified, every path below it is removed |
| TreeCompare.CompareNodeAppeared | tree/node.go:151-155 | a value overwritten by a node: its path is modified, every path below it is added |
| TreeNodeExamples.CreatePathInEmptyTree | tree/node_test.go:165 | `CreatePath(".test.123.foo.bar")` on an empty tree builds the chain of four nodes and returns an empty node |
| TreeNodeExamples.CreatePathOverwritesValue | tree/node_test.go:166 | the number at `foo.bar` is overwritten by a node; the sibling `value` stays |
| TreeNodeExamples.SetIntoEmptyTree | tree/node_test.go:210 | setting `foo.bar` to "test" in an empty tree gives `{foo: {bar: "test"}}` |
| TreeNodeExamples.SetIntoCreatedNode | tree/node_test.go:198-211 | setting `foo.bar` to 123 in the node `CreatePath(".foo.bar.baz")` returns gives `{foo: {bar: 123}}` |
| TreeNodeExamples.SetReplacesNode | tree/node.go:66 | setting `foo.bar` in the tree built by `CreatePath(".foo.bar.baz")` drops the node `baz` |
| TreeNodeExamples.CompareNodeToString | tree/node.go:146-150 | a node with two levels below it, replaced by a string: one modified path and two removed paths |
| TreeVectors.MergeAB | tree/node_test.go:314 | merging tree B into tree A gives tree AB: the nodes `a` and `b` merge key by key, B's values and lists win, and `e`, which only A has, stays |
| TreeVectors.CompareAB | tree/node_test.go:124-127 | comparing tree A with tree B reports exactly the five modified, four added and five removed paths the test expects, with the equal list `g` not reported |
| NamedTree.SplitNamePieces | tree/main.go:29 | no piece of a split name contains the separator |
| NamedTree.SplitNameJoins | tree/main.go:29 | joining the pieces with the separator gives the name back |
| NamedTree.SplitNamePlain | tree/main.go:29 | a name without a separator is one piece |
| NamedTree.SplitNameJoined | tree/main.go:29 | the pieces of `a.b` are the pieces of `a` followed by the pieces of `b` |
| NamedTree.SplitUnfold | tree/main.go:29-49 | a split node is a chain of value-less wrappers named by all pieces but the last, around a node named by the last piece that keeps the value and the split children in order |
| NamedTree.SplitSingle | tree/main.go:29-49 | a value-less node with one child splits into its pieces chained above the split child |
| NamedTree.SplitRenamed | tree/main.go:29-49 | a node renamed `a.b` splits into the pieces of `a` chained above the split node named `b` |
| NamedTree.SplitHasNoSeparators | tree/main.go:28-52 | after splitting, no name in the tree contains the separator |
| NamedTree.SplitKeepsSplitTree | tree/main_test.go:92 | a tree without separators in its names is left as it is |
| NamedTree.SplitIdempotent | tree/main.go:28-52 | splitting twice is splitting once |
| NamedTree.SplitSameChildren | tree/main.go:38-40 | only the split form of the children matters to the split of their parent |
| NamedTree.JoinChain | tree/main.go:56-60 | joining a chain of single children fuses the names with separators in front of the joined innermost node, dropping the wrappers' values |
| NamedTree.JoinHasNoSingleChild | tree/main.go:55-73 | after joining, no node has exactly one child |
| NamedTree.JoinKeepsJoinedTree | tree/main_test.go:112 | a tree without single children is left as it is |
| NamedTree.JoinIdempotent | tree/main.go:55-73 | joining twice is joining once |
| NamedTree.JoinAfterSplit | tree/main_test.go:111 | joining the split form gives the same as joining the original |
| NamedTree.SplitAfterJoin | tree/main_test.go:93 | splitting the joined form gives the same as splitting the original, when only value-less nodes have single children |
| NamedTree.SplitBySeparators | tree/main.go:28-52 | the source's loop that builds the chain from the innermost node outwards computes the split tree |
| NamedTree.JoinBySeparators | tree/main.go:55-73 | the source's recursion with a children loop computes the joined tree |
| NamedTreeExamples.SplitOriginal | tree/main_test.go:91 | the test tree splits into its split form |
| NamedTreeExamples.SplitOfSplitTree | tree/main_test.go:92 | the split form is left as it is |
| NamedTreeExamples.SplitJoinedTree | tree/main_test.go:93 | the joined form splits into the split form |
| NamedTreeExamples.JoinOriginal | tree/main_test.go:110 | the test tree joins into its joined form |
| NamedTreeExamples.JoinSplitTree | tree/main_test.go:111 | the split form joins into the joined form |
| NamedTreeExamples.JoinOfJoinedTree | tree/main_test.go:112 | the joined form is left as it is |
| Storage.Write | storage.go:13 | a write either fails with the store's reason and changes nothing, or replaces the content by the written tree |
| DummyStorage.UseDummyStorage | dummystorage.go:24-36 | without data the store holds the empty tree; with data it holds `Set(initPath, data)` of an empty tree, so the data is found at the path |
| DummyStorage.InitHoldsOnlyData | dummystorage.go:29-33 | an initialised dummy store holds nothing beside the path to the data and what lies below it |
| DummyStorage.Read | dummystorage.go:39-41 | reading never fails |
| DummyStorage.Write | dummystorage.go:44-47 | writing never fails, and a later read returns exactly the tree written |
| DummyStorage.RegisterWatcher | dummystorage.go:53-55 | registering a change signal succeeds and does nothing |
| DummyStorage.AsStore | dummystorage.go:39-47 | the dummy store as an abstract store reads as its tree and accepts every write |
| DummyStorage.WriteAgrees | dummystorage.go:44-47 | the abstract write of a dummy store is its own write |
| ConfigDb.Load | configdb.go:76-89 | loading succeeds exactly when every store can be read |
| ConfigDb.LoadSuffixError | configdb.go:79-84 | a failure among the later stores ends the load before the earlier ones are read |
| ConfigDb.LoadReportsLastFailure | configdb.go:79-84 | a failed load reports the error of the last store that failed; every store after it was readable |
| ConfigDb.LoadSingle | configdb.go:76-89 | a single store loads as its own tree |
| ConfigDb.LoadHighestPriorityWins | configdb.go:79-86 | a store holding a path decides it when no earlier store holds the path or a value above it: the merged tree holds the path, a node where that store has a node, and that store's value where it has a leaf |
| ConfigDb.LoadOnlyFromStores | configdb.go:76-89 | every path of the merged tree comes from some store |
| ConfigDb.ReadConfig | configdb.go:76-89 | the source's loop from the last store down to the first computes the load |
| ConfigDb.SetObject | configdb.go:91-111 | no stores, an unreadable first store or a failed conversion is reported without writing; past those checks the call succeeds exactly when the first store accepts writes, and a refused write returns the store's reason; on success only the first store changes and it holds the value at the path |
| ConfigDb.SetObjectKeepsOthers | configdb.go:102 | paths of the first store off the written path keep their values |
| ConfigDb.SetThenLoad | configdb.go:91-111 | a leaf set through the configuration is what the merged tree holds at that path on the next load |
| ConfigDb.ResetObject | configdb.go:113-133 | the same error order as `SetObject`; once the removal succeeds, the call succeeds exactly when the first store accepts writes, and a refused write returns the store's reason; on success the first store holds the removal's result and the others are unchanged |
| ConfigDb.Offer | configdb.go:167-176 | offering a tree leaves exactly that tree waiting: it replaces an unconsumed one instead of queuing |
| ConfigDb.Reload | configdb.go:160-176 | a successful reload leaves the merged tree waiting; a failed one changes nothing |
| ConfigDb.HandleSet | configdb.go:192-194 | a set event succeeds exactly when `SetObject` does, changes the stores only then, and leaves the hand-off slot alone |
| ConfigDb.HandleReset | configdb.go:183-185 | the same for a reset event and `ResetObject` |
| ConfigDb.Restrict | configdb.go:210-225 | each list keeps exactly the paths of the change that the filter contains, and no other path |
| ConfigDb.SendChanges | configdb.go:208-230 | at most one call per filter; each call carries exactly the part of the change its filter accepts, and no call is empty |
| ConfigDb.SendChangesComplete | configdb.go:226-228 | every filter that accepts some change gets its call |
| ConfigDb.SendChangesSilent | configdb.go:226 | an empty change produces no call |
| ConfigDb.Notify | configdb.go:209-229 | the source's loop over the filters computes `SendChanges` |
| ConfigDb.DefaultFilters | configdb.go:266-268 | a listener always has a filter: an empty list becomes the single empty path, and any other list is kept |
| ConfigDb.Register | configdb.go:264-271 | a registration gets the next id, which was not in use, adds exactly the new listener, and leaves the tree alone |
| ConfigDb.RegisterBootstrap | configdb.go:272-273 | each welcome call comes from one of the new listener's filters and lists as added exactly the paths of the current tree that filter accepts, and nothing as modified or removed |
| ConfigDb.RegisterReachesEveryFilter | configdb.go:272-273 | every filter of the new listener that accepts some path of the current tree receives its welcome call |
| ConfigDb.RegisterSequence | configdb.go:269-271 | successive registrations get successive ids; from a fresh configuration that is 0, 1, 2, ... |
| ConfigDb.Unregister | configdb.go:275-277 | unregistering deletes the id, known or not, and changes nothing else |
| ConfigDb.Apply | configdb.go:247-260 | a handed-over tree becomes the held tree, and every listener gets its calls |
| ConfigDb.ApplyReportsChanges | configdb.go:247-257 | each call a listener gets is for one of its filters, and lists exactly the modified, added and removed paths that filter accepts |
| ConfigDb.ApplyReachesEveryFilter | configdb.go:253-258 | a filter that accepts some change always hears about it |
| ConfigDb.ApplySameTreeIsSilent | configdb.go:247-257 | handing over the tree already held calls nobody |
| ConfigDb.NewConfig | configdb.go:136-140 | creating the configuration succeeds exactly when every store can be read; it starts with the merged tree, no listeners and an empty hand-off slot |
| ConfigDb.Deliver | configdb.go:242-250 | the holder takes the waiting tree, if any, and empties the slot; with nothing waiting nothing changes |
| ConfigDb.TwoReloadsDeliverLatest | configdb.go:167-176 | two reloads before the holder runs deliver one change, from the held tree to the latest |
| ConfigDb.FailedReloadKeepsTree | configdb.go:160-166 | a failed reload keeps the held tree and calls nobody |

## Left out

- `Check` (`tree/node.go:221-252`): not modelled. The `Value` datatype is
  closed, so the unexpected-type error of `Check` cannot arise. It differs
  from `Check` on null, though. `Value` admits `Null`, and the source does
  produce nil: the conversion turns a nil pointer into nil
  (`tree/reflect.go:33-35`). `Check` has no case for nil, and its default
  branch calls `reflect.TypeOf(v).Kind()` on it, which panics.
- The conversion between Go values and tree values (`tree/reflect.go`), which
  `Set` and `Get` call: `Set` takes the conversion's outcome as a parameter,
  and `Get` returns the tree value itself. The fallback getters (`GetBool`,
  `GetString`, ...) depend on that conversion and are left out.
- `tree/number.go`: number formatting and parsing. A number is its decimal
  text, compared as text.
- `PathSplit`, `PathJoin`, `PathContains` and `Node.Remove` are not part of
  this model: they are not defined in the repository's source. They are
  parameters.
- The `Compare` method of the named tree (`tree/main.go:23-25`): it is an
  empty stub.
- JSON and YAML files, file I/O and watchers (`jsonfile.go`, `yamlfile.go`,
  `tree/json.go`, `tree/yaml.go`): a store is abstract. It is a read outcome
  plus whether writes are refused.
- Goroutines, channels, mutexes, `Close` and the per-listener goroutines:
  - the two actors are sequential functions;
  - a delivery yields one call list per listener id, because the source
    runs the listeners concurrently in no defined order.
- Listener callbacks: a listener is its filter list, and a call records the
  filter and the changes it would receive.
- Logging. The panics on an unexpected event type are also left out: the
  events are a closed set.
- TreeNode.Set: the source indexes the last segment of the split path and
  panics when there is none. The model requires a non-empty split path
  instead, only where the source reaches that index: after a successful
  conversion, and, for `ConfigDb.SetObject` and `ConfigDb.HandleSet`, after
  the first store was read. `DummyStorage.UseDummyStorage` requires it when
  there is data to store.
- DummyStorage.UseDummyStorage: the data arrives already converted. The panic
  on a failed conversion is not modelled.
- TreeNode.Merge: the source merges in place, so the merged tree shares
  sub-nodes with the new one. The model builds a new value. As a result, the
  aliasing that `readConfig` (`configdb.go:85`) sets up is not modelled.
  There, a later merge can write into a node that a store's `read`
  returned, and the dummy store returns its own tree.
- TreeNode.Put: the source builds the nodes above the key by calling
  `CreatePath` on `PathJoin` of the leading segments. The model walks the
  segments directly, which assumes that `PathSplit` undoes `PathJoin` on
  them.
- TreeCompare.ChangedSpec: the source decides whether two leaves differ with
  `cmp.Equal` (`tree/node.go:156`). That call tells a nil list from an empty
  one, and it compares scalars together with their dynamic Go type. Here
  equality is equality of `Value`, which has one empty list and one kind per
  scalar. So where the source reports a nil list replaced by an empty list,
  or a scalar replaced by an equal-looking one of another Go type, as
  modified, `ChangedSpec` and `ModifiedAt` report nothing.
- TreeCompare.CompareSpec: its modified list inherits the `cmp.Equal`
  difference described for `TreeCompare.ChangedSpec`.
- ConfigDb.LoadHighestPriorityWins: where the winning store holds a node,
  the lemma promises only that a node is there, not what it holds. The
  merged node also contains the other stores' keys.

=== FILE: configdb.dfy ===
/** The rules around the tree engine, as two sequential actors. The loader
    owns the list of stores: it builds the merged tree, writes `Set` and
    `Reset` through to the first store, and hands reloaded trees over in a
    one-slot buffer. The holder owns the current tree and the listeners: it
    swaps in handed-over trees and tells each listener what changed under
    the paths it watches. Path containment is a parameter. */
module ConfigDb {
  import opened Results
  import opened TreeNode
  import opened TreeCompare
  import TreeErrors
  import Storage

  datatype ConfigError =
    | NoStores
    | StoreFailed(reason: string)
    | TreeFailed(error: TreeErrors.TreeError)

  function ErrorMessage(e: ConfigError): string {
    match e
    case NoStores => "There are no files to write to"
    case StoreFailed(reason) => reason
    case TreeFailed(err) => TreeErrors.Message(err)
  }

  // ------------------------------------------------------------ Loading

  predicate Readable(stores: seq<Storage.Store>) {
    forall i :: 0 <= i < |stores| ==> stores[i].content.Ok?
  }

  /** The merged tree: start from an empty node and merge the stores in from
      the last to the first, so the first store overrides all others. The
      last store is read first, so when several stores fail, the error of
      the last failing one is reported. */
  function Load(stores: seq<Storage.Store>): (r: Result<Node, ConfigError>)
    ensures r.Ok? <==> Readable(stores)
    decreases |stores|
  {
    if |stores| == 0 then Ok(map[])
    else
      var rest := Load(stores[1..]);
      if rest.Err? then rest
      else match stores[0].content
        case Err(reason) => Err(StoreFailed(reason))
        case Ok(t) => Ok(Merge(rest.value, t))
  }

  /** An error in a later part of the list is the error of the whole. */
  lemma {:induction false} LoadSuffixError(stores: seq<Storage.Store>, j: nat)
    requires j <= |stores| && Load(stores[j..]).Err?
    ensures Load(stores) == Load(stores[j..])
    decreases j
  {
    if j > 0 {
      assert stores[1..][j - 1..] == stores[j..];
      LoadSuffixError(stores[1..], j - 1);
    }
  }

  /** A failed load names the last store that could not be read. */
  lemma {:induction false} LoadReportsLastFailure(stores: seq<Storage.Store>)
    requires Load(stores).Err?
    ensures exists i :: (0 <= i < |stores| && stores[i].content.Err?
                         && Load(stores) == Err(StoreFailed(stores[i].content.error))
                         && Readable(stores[i + 1..]))
    decreases |stores|
  {
    var rest := Load(stores[1..]);
    if rest.Err? {
      LoadReportsLastFailure(stores[1..]);
      var i :| 0 <= i < |stores[1..]| && stores[1..][i].content.Err?
        && rest == Err(StoreFailed(stores[1..][i].content.error))
        && Readable(stores[1..][i + 1..]);
      assert stores[1..][i + 1..] == stores[i + 2..];
      assert stores[i + 1] == stores[1..][i];
    } else {
      assert stores[1..] == stores[0 + 1..];
    }
  }

  /** A single store loads as its own tree. */
  lemma LoadSingle(s: Storage.Store)
    requires s.content.Ok?
    ensures Load([s]) == Ok(s.content.value)
  {
    assert [s][1..] == [];
    MergeEmptyLeft(s.content.value);
  }

  /** A store that holds a path decides it when no store of higher priority
      (lower index) holds the path or a value above it: the merged tree
      holds the path too, a node where that store has a node, and the same
      value where that store has a leaf. */
  lemma {:induction false} LoadHighestPriorityWins(stores: seq<Storage.Store>, i: nat, q: Path)
    requires Readable(stores)
    requires i < |stores| && At(stores[i].content.value, q).Ok?
    requires forall j :: 0 <= j < i ==> At(stores[j].content.value, q) == Err(Missing)
    ensures At(Load(stores).value, q).Ok?
    ensures At(stores[i].content.value, q).value.Nested? ==> At(Load(stores).value, q).value.Nested?
    ensures !At(stores[i].content.value, q).value.Nested? ==>
      At(Load(stores).value, q) == At(stores[i].content.value, q)
    decreases i
  {
    var rest := Load(stores[1..]);
    assert Readable(stores[1..]) by {
      forall j | 0 <= j < |stores[1..]| ensures stores[1..][j].content.Ok? {
        assert stores[1..][j] == stores[j + 1];
      }
    }
    var t := stores[0].content.value;
    if i == 0 {
      MergeKeepsNew(rest.value, t, q);
    } else {
      forall j | 0 <= j < i - 1 ensures At(stores[1..][j].content.value, q) == Err(Missing) {
        assert stores[1..][j] == stores[j + 1];
      }
      assert stores[1..][i - 1] == stores[i];
      LoadHighestPriorityWins(stores[1..], i - 1, q);
      MergeKeepsOld(rest.value, t, q);
    }
  }

  /** Every path of the merged tree comes from some store. */
  lemma {:induction false} LoadOnlyFromStores(stores: seq<Storage.Store>, q: Path)
    requires Load(stores).Ok? && At(Load(stores).value, q).Ok?
    ensures |q| == 0 || exists i :: 0 <= i < |stores| && At(stores[i].content.value, q).Ok?
    decreases |stores|
  {
    if |q| > 0 {
      var rest := Load(stores[1..]).value;
      var t := stores[0].content.value;
      MergeOnlyFromInputs(rest, t, q);
      if At(t, q).Ok? {
        assert At(stores[0].content.value, q).Ok?;
      } else {
        LoadOnlyFromStores(stores[1..], q);
        var i :| 0 <= i < |stores[1..]| && At(stores[1..][i].content.value, q).Ok?;
        assert stores[1..][i] == stores[i + 1];
      }
    }
  }

  /** `readConfig` of the source: a loop from the last store down to the
      first. */
  method ReadConfig(stores: seq<Storage.Store>) returns (r: Result<Node, ConfigError>)
    ensures r == Load(stores)
  {
    var result: Node := map[];
    var i := |stores|;
    assert stores[i..] == [];
    while i > 0
      invariant 0 <= i <= |stores|
      invariant Load(stores[i..]) == Ok(result)
    {
      var s := stores[i - 1];
      assert stores[i - 1..][1..] == stores[i..];
      match s.content {
        case Err(reason) =>
          LoadSuffixError(stores, i - 1);
          return Err(StoreFailed(reason));
        case Ok(t) =>
          result := Merge(result, t);
      }
      i := i - 1;
    }
    assert stores[0..] == stores;
    return Ok(result);
  }

  // ------------------------------------------------------------ Writing

  /** `setObject` of the source: read the first store afresh, store the
      converted value (`encoded`) at the path, and write the tree back. Any
      failure before the write leaves every store as it was. */
  function SetObject(stores: seq<Storage.Store>, path: string, split: string -> Path,
                     encoded: Result<Value, TreeErrors.TreeError>): (r: Result<seq<Storage.Store>, ConfigError>)
    requires |stores| > 0 && stores[0].content.Ok? && encoded.Ok? ==> |split(path)| > 0
    ensures |stores| == 0 ==> r == Err(NoStores)
    ensures |stores| > 0 && stores[0].content.Err? ==> r == Err(StoreFailed(stores[0].content.error))
    ensures |stores| > 0 && stores[0].content.Ok? && encoded.Err? ==> r == Err(TreeFailed(encoded.error))
    ensures |stores| > 0 && stores[0].content.Ok? && encoded.Ok? ==> (r.Ok? <==> stores[0].writeFailure.None?)
    ensures |stores| > 0 && stores[0].content.Ok? && encoded.Ok? && stores[0].writeFailure.Some? ==>
      r == Err(StoreFailed(stores[0].writeFailure.value))
    ensures r.Ok? ==> encoded.Ok? && |r.value| == |stores| && r.value[1..] == stores[1..]
    ensures r.Ok? ==> r.value[0].writeFailure == stores[0].writeFailure
    ensures r.Ok? ==> r.value[0].content.Ok? && At(r.value[0].content.value, split(path)) == Ok(encoded.value)
  {
    if |stores| == 0 then Err(NoStores)
    else match stores[0].content
      case Err(reason) => Err(StoreFailed(reason))
      case Ok(t) =>
        match Set(t, path, split, encoded)
        case Err(e) => Err(TreeFailed(e))
        case Ok(t') =>
          match Storage.Write(stores[0], t')
          case Err(reason) => Err(StoreFailed(reason))
          case Ok(s) => Ok(stores[0 := s])
  }

  /** Only the written path changes in the first store: every other path it
      held that is neither above nor below the written one stays as it
      was. */
  lemma SetObjectKeepsOthers(stores: seq<Storage.Store>, path: string, split: string -> Path,
                             encoded: Result<Value, TreeErrors.TreeError>, q: Path)
    requires |split(path)| > 0
    requires SetObject(stores, path, split, encoded).Ok?
    requires At(stores[0].content.value, q).Ok?
    requires !PrefixOf(q, split(path)) && !PrefixOf(split(path), q)
    ensures At(SetObject(stores, path, split, encoded).value[0].content.value, q) == At(stores[0].content.value, q)
  {
    PutKeepsOthers(stores[0].content.value, split(path), encoded.value, q);
  }

  /** A leaf set through the configuration is what the merged tree holds
      there once the stores are loaded again. */
  lemma SetThenLoad(stores: seq<Storage.Store>, path: string, split: string -> Path, v: Value)
    requires |split(path)| > 0 && !v.Nested?
    requires SetObject(stores, path, split, Ok(v)).Ok?
    requires Load(SetObject(stores, path, split, Ok(v)).value).Ok?
    ensures At(Load(SetObject(stores, path, split, Ok(v)).value).value, split(path)) == Ok(v)
  {
    var after := SetObject(stores, path, split, Ok(v)).value;
    LoadHighestPriorityWins(after, 0, split(path));
  }

  /** `resetObject` of the source: as `SetObject`, with the removal of the
      path (a parameter) in place of storing a value. */
  function ResetObject(stores: seq<Storage.Store>, path: string,
                       remove: (Node, string) -> Result<Node, TreeErrors.TreeError>)
    : (r: Result<seq<Storage.Store>, ConfigError>)
    ensures |stores| == 0 ==> r == Err(NoStores)
    ensures |stores| > 0 && stores[0].content.Err? ==> r == Err(StoreFailed(stores[0].content.error))
    ensures |stores| > 0 && stores[0].content.Ok? && remove(stores[0].content.value, path).Err? ==>
      r == Err(TreeFailed(remove(stores[0].content.value, path).error))
    ensures |stores| > 0 && stores[0].content.Ok? && remove(stores[0].content.value, path).Ok? ==>
      (r.Ok? <==> stores[0].writeFailure.None?)
    ensures (|stores| > 0 && stores[0].content.Ok? && remove(stores[0].content.value, path).Ok? &&
             stores[0].writeFailure.Some?) ==> r == Err(StoreFailed(stores[0].writeFailure.value))
    ensures r.Ok? ==> |r.value| == |stores| && r.value[1..] == stores[1..]
    ensures r.Ok? ==> r.value[0].writeFailure == stores[0].writeFailure
    ensures r.Ok? ==> (remove(stores[0].content.value, path).Ok?
                       && r.value[0].content == Ok(remove(stores[0].content.value, path).value))
  {
    if |stores| == 0 then Err(NoStores)
    else match stores[0].content
      case Err(reason) => Err(StoreFailed(reason))
      case Ok(t) =>
        match remove(t, path)
        case Err(e) => Err(TreeFailed(e))
        case Ok(t') =>
          match Storage.Write(stores[0], t')
          case Err(reason) => Err(StoreFailed(reason))
          case Ok(s) => Ok(stores[0 := s])
  }

  // ------------------------------------------------------------ The loader

  /** The hand-off between the actors: at most one tree waits. */
  type Slot = Option<Node>

  /** Offering a tree puts it into an empty slot, or replaces the tree that
      still waits: a reload never queues behind an unconsumed one. */
  function Offer(slot: Slot, t: Node): (r: Slot)
    ensures r == Some(t)
  {
    match slot
    case None => Some(t)
    case Some(_) => Some(t)
  }

  datatype Loader = Loader(stores: seq<Storage.Store>, slot: Slot)

  /** A change signal: the stores are loaded again, and the merged tree is
      offered to the holder. A failed load is only logged in the source:
      nothing changes. */
  function Reload(l: Loader): (r: Loader)
    ensures r.stores == l.stores
    ensures Load(l.stores).Ok? ==> r.slot == Some(Load(l.stores).value)
    ensures Load(l.stores).Err? ==> r == l
  {
    match Load(l.stores)
    case Err(_) => l
    case Ok(t) => l.(slot := Offer(l.slot, t))
  }

  /** A `Set` event: the outcome goes back to the caller; the stores change
      only on success, and no reload is triggered. */
  function HandleSet(l: Loader, path: string, split: string -> Path,
                     encoded: Result<Value, TreeErrors.TreeError>): (r: (Loader, Outcome<ConfigError>))
    requires |l.stores| > 0 && l.stores[0].content.Ok? && encoded.Ok? ==> |split(path)| > 0
    ensures r.0.slot == l.slot
    ensures r.1 == Pass <==> SetObject(l.stores, path, split, encoded).Ok?
    ensures r.1 == Pass ==> r.0.stores == SetObject(l.stores, path, split, encoded).value
    ensures r.1.Fail? ==> r.0 == l && r.1.error == SetObject(l.stores, path, split, encoded).error
  {
    match SetObject(l.stores, path, split, encoded)
    case Err(e) => (l, Fail(e))
    case Ok(stores) => (l.(stores := stores), Pass)
  }

  /** A `Reset` event, as `HandleSet`. */
  function HandleReset(l: Loader, path: string,
                       remove: (Node, string) -> Result<Node, TreeErrors.TreeError>): (r: (Loader, Outcome<ConfigError>))
    ensures r.0.slot == l.slot
    ensures r.1 == Pass <==> ResetObject(l.stores, path, remove).Ok?
    ensures r.1 == Pass ==> r.0.stores == ResetObject(l.stores, path, remove).value
    ensures r.1.Fail? ==> r.0 == l && r.1.error == ResetObject(l.stores, path, remove).error
  {
    match ResetObject(l.stores, path, remove)
    case Err(e) => (l, Fail(e))
    case Ok(stores) => (l.(stores := stores), Pass)
  }

  // ------------------------------------------------------------ Listeners

  /** A listener is known by its filter paths; its callback is identified by
      its id. */
  datatype Listener = Listener(filters: seq<string>)

  /** One callback invocation: the filter it was made for and the changes
      accepted by it. */
  datatype Call = Call(filter: string, changes: Diff)

  predicate IsEmpty(d: Diff) {
    d.modified == {} && d.added == {} && d.removed == {}
  }

  /** The part of a diff that lies within the filter path `f`. */
  function Restrict(d: Diff, f: string, contains: (Path, string) -> bool): (r: Diff)
    ensures r.modified <= d.modified && r.added <= d.added && r.removed <= d.removed
    ensures forall q :: q in d.modified && contains(q, f) ==> q in r.modified
    ensures forall q :: q in d.added && contains(q, f) ==> q in r.added
    ensures forall q :: q in d.removed && contains(q, f) ==> q in r.removed
    ensures forall q :: q in r.modified + r.added + r.removed ==> contains(q, f)
  {
    Diff(set q | q in d.modified && contains(q, f),
         set q | q in d.added && contains(q, f),
         set q | q in d.removed && contains(q, f))
  }

  /** `sendChanges` of the source: one call per filter, in filter order,
      made only when the filter accepts at least one change. */
  function SendChanges(filters: seq<string>, d: Diff, contains: (Path, string) -> bool): (r: seq<Call>)
    ensures |r| <= |filters|
    ensures forall c :: c in r ==> c.filter in filters && c.changes == Restrict(d, c.filter, contains) && !IsEmpty(c.changes)
    decreases |filters|
  {
    if |filters| == 0 then [] else CallFor(filters[0], d, contains) + SendChanges(filters[1..], d, contains)
  }

  /** The call made for one filter, if any. */
  function CallFor(f: string, d: Diff, contains: (Path, string) -> bool): seq<Call> {
    var here := Restrict(d, f, contains);
    if IsEmpty(here) then [] else [Call(f, here)]
  }

  /** Every filter that accepts a change gets its call. */
  lemma {:induction false} SendChangesComplete(filters: seq<string>, d: Diff, contains: (Path, string) -> bool, f: string)
    requires f in filters && !IsEmpty(Restrict(d, f, contains))
    ensures Call(f, Restrict(d, f, contains)) in SendChanges(filters, d, contains)
    decreases |filters|
  {
    if filters[0] != f {
      assert f in filters[1..];
      SendChangesComplete(filters[1..], d, contains, f);
    }
  }

  /** No change, no call. */
  lemma SendChangesSilent(filters: seq<string>, d: Diff, contains: (Path, string) -> bool)
    requires IsEmpty(d)
    ensures SendChanges(filters, d, contains) == []
  {
  }

  /** One step of `SendChanges` from position `i`. */
  lemma SendChangesStep(filters: seq<string>, d: Diff, contains: (Path, string) -> bool, i: nat)
    requires i < |filters|
    ensures SendChanges(filters[i..], d, contains)
      == CallFor(filters[i], d, contains) + SendChanges(filters[i + 1..], d, contains)
  {
    assert filters[i..][1..] == filters[i + 1..];
  }

  /** The same, as the loop the source runs. */
  method Notify(filters: seq<string>, d: Diff, contains: (Path, string) -> bool) returns (r: seq<Call>)
    ensures r == SendChanges(filters, d, contains)
  {
    r := [];
    var i := 0;
    while i < |filters|
      invariant 0 <= i <= |filters|
      invariant SendChanges(filters, d, contains) == r + SendChanges(filters[i..], d, contains)
    {
      SendChangesStep(filters, d, contains, i);
      r := r + CallFor(filters[i], d, contains);
      i := i + 1;
    }
  }

  // ------------------------------------------------------------ The holder

  datatype Holder = Holder(tree: Node, listeners: map<nat, Listener>, counter: nat)

  /** Every registered id was handed out before, and every listener has at
      least one filter. */
  predicate Valid(h: Holder) {
    && (forall id :: id in h.listeners ==> id < h.counter)
    && (forall id :: id in h.listeners ==> |h.listeners[id].filters| > 0)
  }

  datatype Registered = Registered(holder: Holder, id: nat, calls: seq<Call>)

  /** The filter list a listener is registered with: an empty list becomes
      the single empty path, which matches everything. */
  function DefaultFilters(filters: seq<string>): (r: seq<string>)
    ensures |r| > 0
    ensures |filters| == 0 ==> r == [""]
    ensures |filters| > 0 ==> r == filters
  {
    if |filters| == 0 then [""] else filters
  }

  /** A registration takes the next id and tells the new listener, and only
      it, about the current tree as if it had appeared from nothing. */
  function Register(h: Holder, filters: seq<string>, contains: (Path, string) -> bool): (r: Registered)
    requires Valid(h)
    ensures Valid(r.holder)
    ensures r.id == h.counter && r.id !in h.listeners && r.holder.counter == h.counter + 1
    ensures r.holder.listeners == h.listeners[r.id := Listener(DefaultFilters(filters))]
    ensures r.holder.tree == h.tree
  {
    var l := Listener(DefaultFilters(filters));
    var id := h.counter;
    var d := Compare(map[], h.tree);
    Registered(Holder(h.tree, h.listeners[id := l], h.counter + 1), id, SendChanges(l.filters, d, contains))
  }

  /** The welcome calls list only additions: every path of the current tree
      that the filter accepts. */
  lemma RegisterBootstrap(h: Holder, filters: seq<string>, contains: (Path, string) -> bool, c: Call, q: Path)
    requires Valid(h)
    requires c in Register(h, filters, contains).calls
    ensures c.filter in DefaultFilters(filters)
    ensures c.changes.modified == {} && c.changes.removed == {}
    ensures q in c.changes.added <==> |q| > 0 && At(h.tree, q).Ok? && contains(q, c.filter)
  {
    CompareWithEmpty(h.tree, []);
    CompareSpec(map[], h.tree, q);
    assert At(map[], q).Ok? <==> |q| == 0 by {
      if |q| > 0 {
        WalkStep(map[], q[0], q[1..]);
        assert q == [q[0]] + q[1..];
      }
    }
  }

  /** Every filter of the new listener that accepts a path of the current
      tree is welcomed with a call. */
  lemma RegisterReachesEveryFilter(h: Holder, filters: seq<string>, contains: (Path, string) -> bool,
                                   f: string, q: Path)
    requires Valid(h) && f in DefaultFilters(filters)
    requires |q| > 0 && At(h.tree, q).Ok? && contains(q, f)
    ensures Call(f, Restrict(Compare(map[], h.tree), f, contains)) in Register(h, filters, contains).calls
  {
    CompareSpec(map[], h.tree, q);
    WalkStep(map[], q[0], q[1..]);
    assert q == [q[0]] + q[1..];
    SendChangesComplete(DefaultFilters(filters), Compare(map[], h.tree), contains, f);
  }

  /** Removing a listener, registered or not, is a deletion. */
  function Unregister(h: Holder, id: nat): (r: Holder)
    ensures id !in r.listeners
    ensures forall k :: k in r.listeners <==> k in h.listeners && k != id
    ensures forall k :: k in r.listeners ==> r.listeners[k] == h.listeners[k]
    ensures r.tree == h.tree && r.counter == h.counter
    ensures Valid(h) ==> Valid(r)
  {
    h.(listeners := h.listeners - {id})
  }

  datatype Applied = Applied(holder: Holder, calls: map<nat, seq<Call>>)

  /** A handed-over tree: the diff against the held tree goes to every
      listener, and the held tree becomes the new one. */
  function Apply(h: Holder, t: Node, contains: (Path, string) -> bool): (r: Applied)
    ensures r.holder == h.(tree := t)
    ensures r.calls.Keys == h.listeners.Keys
    ensures Valid(h) ==> Valid(r.holder)
  {
    var d := Compare(h.tree, t);
    Applied(h.(tree := t), map id | id in h.listeners :: SendChanges(h.listeners[id].filters, d, contains))
  }

  /** What a listener hears is exactly the part of the change that one of
      its filters accepts. */
  lemma ApplyReportsChanges(h: Holder, t: Node, contains: (Path, string) -> bool, id: nat, c: Call, q: Path)
    requires id in h.listeners && c in Apply(h, t, contains).calls[id]
    ensures c.filter in h.listeners[id].filters && !IsEmpty(c.changes)
    ensures q in c.changes.modified <==> ModifiedAt(h.tree, t, q) && contains(q, c.filter)
    ensures q in c.changes.added <==> OnlyIn(t, h.tree, q) && contains(q, c.filter)
    ensures q in c.changes.removed <==> OnlyIn(h.tree, t, q) && contains(q, c.filter)
  {
    CompareSpec(h.tree, t, q);
  }

  /** A filter that accepts some change always hears about it. */
  lemma ApplyReachesEveryFilter(h: Holder, t: Node, contains: (Path, string) -> bool, id: nat, f: string, q: Path)
    requires id in h.listeners && f in h.listeners[id].filters && contains(q, f)
    requires ModifiedAt(h.tree, t, q) || OnlyIn(t, h.tree, q) || OnlyIn(h.tree, t, q)
    ensures Call(f, Restrict(Compare(h.tree, t), f, contains)) in Apply(h, t, contains).calls[id]
  {
    CompareSpec(h.tree, t, q);
    SendChangesComplete(h.listeners[id].filters, Compare(h.tree, t), contains, f);
  }

  /** Handing over the tree already held calls nobody. */
  lemma ApplySameTreeIsSilent(h: Holder, contains: (Path, string) -> bool, id: nat)
    requires id in h.listeners
    ensures Apply(h, h.tree, contains).calls[id] == []
  {
    CompareSelf(h.tree);
    SendChangesSilent(h.listeners[id].filters, Compare(h.tree, h.tree), contains);
  }

  // ------------------------------------------------------------ The system

  datatype Config = Config(loader: Loader, holder: Holder)

  /** `NewConfig` of the source: the stores must load, and then the holder
      starts with their merged tree, no listeners and an empty slot. */
  function NewConfig(stores: seq<Storage.Store>): (r: Result<Config, ConfigError>)
    ensures r.Ok? <==> Readable(stores)
    ensures r.Err? ==> r.error == Load(stores).error
    ensures r.Ok? ==> r.value.holder.tree == Load(stores).value && r.value.loader == Loader(stores, None)
    ensures r.Ok? ==> Valid(r.value.holder) && r.value.holder.listeners == map[] && r.value.holder.counter == 0
  {
    match Load(stores)
    case Err(e) => Err(e)
    case Ok(t) => Ok(Config(Loader(stores, None), Holder(t, map[], 0)))
  }

  /** The holder takes the waiting tree, if any, and empties the slot. */
  function Deliver(c: Config, contains: (Path, string) -> bool): (r: (Config, map<nat, seq<Call>>))
    ensures r.0.loader.slot == None && r.0.loader.stores == c.loader.stores
    ensures c.loader.slot.None? ==> r.0.holder == c.holder && r.1 == map[]
    ensures c.loader.slot.Some? ==> r.0.holder.tree == c.loader.slot.value
    ensures Valid(c.holder) ==> Valid(r.0.holder)
  {
    match c.loader.slot
    case None => (c, map[])
    case Some(t) =>
      var a := Apply(c.holder, t, contains);
      (Config(c.loader.(slot := None), a.holder), a.calls)
  }

  /** Two reloads before the holder gets to run deliver only the second
      tree: listeners hear one diff, from the held tree to the latest. */
  lemma TwoReloadsDeliverLatest(c: Config, later: seq<Storage.Store>, contains: (Path, string) -> bool)
    requires Load(c.loader.stores).Ok? && Load(later).Ok?
    ensures var first := Reload(c.loader);
      var second := Reload(first.(stores := later));
      Deliver(Config(second, c.holder), contains).1 == Apply(c.holder, Load(later).value, contains).calls
  {
  }

  /** A reload that fails leaves the held tree alone: with nothing waiting,
      the next delivery changes nothing and calls nobody. */
  lemma FailedReloadKeepsTree(c: Config, contains: (Path, string) -> bool)
    requires Load(c.loader.stores).Err? && c.loader.slot.None?
    ensures Deliver(Config(Reload(c.loader), c.holder), contains) == (Config(c.loader, c.holder), map[])
  {
  }

  /** Successive registrations get the ids `counter`, `counter + 1`, ...;
      from a fresh configuration that is 0, 1, 2, ... */
  lemma {:induction false} RegisterSequence(h: Holder, n: nat, contains: (Path, string) -> bool)
    requires Valid(h)
    ensures var r := Registrations(h, n, contains);
      && r.1.counter == h.counter + n
      && (forall i :: 0 <= i < n ==> r.0[i] == h.counter + i)
    decreases n
  {
    if n > 0 {
      RegisterSequence(h, n - 1, contains);
      var prev := Registrations(h, n - 1, contains);
      var reg := Register(prev.1, [], contains);
      assert Registrations(h, n, contains) == (prev.0 + [reg.id], reg.holder);
    }
  }

  /** `n` registrations with the empty filter list, returning the ids in
      order and the resulting holder. */
  function Registrations(h: Holder, n: nat, contains: (Path, string) -> bool): (r: (seq<nat>, Holder))
    requires Valid(h)
    ensures |r.0| == n && Valid(r.1)
    decreases n
  {
    if n == 0 then ([], h)
    else
      var prev := Registrations(h, n - 1, contains);
      var reg := Register(prev.1, [], contains);
      (prev.0 + [reg.id], reg.holder)
  }
}

=== FILE: dummy_storage.dfy ===
/** The in-memory store: it holds one tree, reading returns it, writing
    replaces it, and it never reports a change on its own. */
module DummyStorage {
  import opened Results
  import opened TreeNode
  import Storage

  datatype Dummy = Dummy(tree: Node)

  /** A dummy store starts empty, or holding `initData` stored at `initPath`
      into an empty tree. The value arrives already converted to a tree
      value; a conversion failure panics in the source and is not modelled. */
  function UseDummyStorage(initPath: string, initData: Option<Value>, split: string -> Path): (r: Dummy)
    requires initData.Some? ==> |split(initPath)| > 0
    ensures initData.None? ==> r.tree == map[]
    ensures initData.Some? ==> Set(map[], initPath, split, Ok(initData.value)) == Ok(r.tree)
    ensures initData.Some? ==> At(r.tree, split(initPath)) == Ok(initData.value)
  {
    match initData
    case None => Dummy(map[])
    case Some(v) => Dummy(Set(map[], initPath, split, Ok(v)).value)
  }

  /** Reading cannot fail. */
  function Read(d: Dummy): (r: Result<Node, string>)
    ensures r.Ok?
  {
    Ok(d.tree)
  }

  /** Writing cannot fail, and a later read returns exactly the tree
      written. */
  function Write(d: Dummy, t: Node): (r: (Dummy, Outcome<string>))
    ensures r.1 == Pass
    ensures Read(r.0) == Ok(t)
  {
    (Dummy(t), Pass)
  }

  /** Registering (or, with `watching` false, unregistering) a change signal
      succeeds and does nothing: a dummy store never signals a change. */
  function RegisterWatcher(d: Dummy, watching: bool): (r: Outcome<string>)
    ensures r == Pass
  {
    Pass
  }

  /** The dummy store seen as an abstract store. */
  function AsStore(d: Dummy): (r: Storage.Store)
    ensures r.content == Read(d)
    ensures r.writeFailure == None
  {
    Storage.Store(Read(d), None)
  }

  /** The abstract write of a dummy store is the dummy write. */
  lemma WriteAgrees(d: Dummy, t: Node)
    ensures Storage.Write(AsStore(d), t) == Ok(AsStore(Write(d, t).0))
  {
  }

  /** A dummy store initialised with data holds nothing but that data at
      the initial path. */
  lemma InitHoldsOnlyData(initPath: string, v: Value, split: string -> Path, q: Path)
    requires |split(initPath)| > 0
    requires At(UseDummyStorage(initPath, Some(v), split).tree, q).Ok?
    ensures PrefixOf(q, split(initPath)) || PrefixOf(split(initPath), q)
  {
    PutAddsOnlyPath(map[], split(initPath), v, q);
    if |q| > 0 {
      WalkStep(map[], q[0], q[1..]);
      assert q == [q[0]] + q[1..];
    }
  }
}

=== FILE: named_tree.dfy ===
/** The older, struct-based tree: every node has a name, an optional value
    (a missing one is Go's nil) and an ordered list of children. Names may
    contain the separator; splitting turns such a name into a chain of
    nodes, joining fuses chains of single children back into one name. */
module NamedTree {
  import opened Results
  import TreePath

  datatype NamedNode<V> = NamedNode(name: string, value: Option<V>, children: seq<NamedNode<V>>)

  const Separator: char := TreePath.Separator

  // ------------------------------------------------------------ names

  /** `strings.Split(s, Separator)`: the pieces between separators, with an
      empty piece before a leading, after a trailing and between two
      adjacent separators; the empty text gives one empty piece. */
  function SplitName(s: string): (r: seq<string>)
    ensures |r| > 0
  {
    if |s| == 0 then [""]
    else
      var rest := SplitName(s[1..]);
      if s[0] == Separator then [""] + rest
      else [[s[0]] + rest[0]] + rest[1..]
  }

  lemma JoinCons(a: string, rest: seq<string>)
    requires |rest| > 0
    ensures TreePath.JoinElements([a] + rest) == a + [Separator] + TreePath.JoinElements(rest)
  {
    assert ([a] + rest)[1..] == rest;
  }

  /** Prepending text to the first piece prepends it to the joined text. */
  lemma JoinHead(c: string, rest: seq<string>)
    requires |rest| > 0
    ensures TreePath.JoinElements([c + rest[0]] + rest[1..]) == c + TreePath.JoinElements(rest)
  {
    assert rest == [rest[0]] + rest[1..];
    JoinHeadCons(c, rest[0], rest[1..]);
  }

  lemma JoinHeadCons(c: string, h: string, t: seq<string>)
    ensures TreePath.JoinElements([c + h] + t) == c + TreePath.JoinElements([h] + t)
  {
    if |t| > 0 {
      JoinCons(c + h, t);
      JoinCons(h, t);
      var jt := TreePath.JoinElements(t);
      assert (c + h) + [Separator] + jt == c + (h + [Separator] + jt);
    } else {
      assert [c + h] + t == [c + h];
      assert [h] + t == [h];
    }
  }

  /** No piece contains the separator. */
  lemma {:induction false} SplitNamePieces(s: string)
    ensures forall i :: 0 <= i < |SplitName(s)| ==> Separator !in SplitName(s)[i]
    decreases |s|
  {
    if |s| > 0 {
      SplitNamePieces(s[1..]);
      var rest := SplitName(s[1..]);
      if s[0] != Separator {
        assert forall i :: 1 <= i < |SplitName(s)| ==> SplitName(s)[i] == rest[i];
      }
    }
  }

  /** Joining the pieces with the separator gives the name back. */
  lemma {:induction false} SplitNameJoins(s: string)
    ensures TreePath.JoinElements(SplitName(s)) == s
    decreases |s|
  {
    if |s| > 0 {
      SplitNameJoins(s[1..]);
      var rest := SplitName(s[1..]);
      if s[0] == Separator {
        assert s == [Separator] + s[1..];
        JoinCons("", rest);
      } else {
        assert s == [s[0]] + s[1..];
        JoinHead([s[0]], rest);
      }
    }
  }

  /** A name without separators is a single piece. */
  lemma {:induction false} SplitNamePlain(s: string)
    requires Separator !in s
    ensures SplitName(s) == [s]
  {
    if |s| > 0 {
      assert Separator !in s[1..] by {
        assert forall i :: 0 <= i < |s[1..]| ==> s[1..][i] == s[i + 1];
      }
      SplitNamePlain(s[1..]);
      assert [s[0]] + s[1..] == s;
    }
  }

  /** Splitting a joined name splits each side. */
  lemma {:induction false} SplitNameJoined(a: string, b: string)
    ensures SplitName(a + [Separator] + b) == SplitName(a) + SplitName(b)
    decreases |a|
  {
    if |a| == 0 {
      assert a + [Separator] + b == [Separator] + b;
      assert ([Separator] + b)[1..] == b;
    } else {
      assert (a + [Separator] + b)[1..] == a[1..] + [Separator] + b;
      assert (a + [Separator] + b)[0] == a[0];
      SplitNameJoined(a[1..], b);
    }
  }



  // ------------------------------------------------------------ chains

  /** The chain `names[0] -> names[1] -> ... -> inner` of value-less nodes
      with one child each. */
  function Chain<V>(names: seq<string>, inner: NamedNode<V>): NamedNode<V>
    decreases |names|
  {
    if |names| == 0 then inner
    else NamedNode(names[0], None, [Chain(names[1..], inner)])
  }

  /** Wrapping the innermost node once more extends the chain at its end,
      which is how the source builds it, from the last name outwards. */
  lemma {:induction false} ChainSnoc<V>(names: seq<string>, x: string, inner: NamedNode<V>)
    ensures Chain(names + [x], inner) == Chain(names, NamedNode(x, None, [inner]))
    decreases |names|
  {
    if |names| == 0 {
      assert names + [x] == [x];
    } else {
      assert (names + [x])[1..] == names[1..] + [x];
      ChainSnoc(names[1..], x, inner);
    }
  }

  lemma {:induction false} ChainConcat<V>(p: seq<string>, q: seq<string>, inner: NamedNode<V>)
    ensures Chain(p + q, inner) == Chain(p, Chain(q, inner))
    decreases |p|
  {
    if |p| == 0 {
      assert p + q == q;
    } else {
      assert (p + q)[1..] == p[1..] + q;
      ChainConcat(p[1..], q, inner);
    }
  }

  // ------------------------------------------------------------- split

  /** `SplitBySeparators`: the node's name is split into pieces; the last
      piece keeps the value and the split children, the others become
      value-less wrappers with one child each. */
  function Split<V>(n: NamedNode<V>): NamedNode<V>
    decreases n
  {
    var names := SplitName(n.name);
    var last := NamedNode(names[|names| - 1], n.value,
                          seq(|n.children|, i requires 0 <= i < |n.children| => Split(n.children[i])));
    Chain(names[..|names| - 1], last)
  }

  /** No name anywhere in the tree contains the separator. */
  predicate NoSeparators<V>(n: NamedNode<V>)
    decreases n
  {
    && Separator !in n.name
    && forall i :: 0 <= i < |n.children| ==> NoSeparators(n.children[i])
  }

  lemma {:induction false} ChainNoSeparators<V>(names: seq<string>, inner: NamedNode<V>)
    requires forall i :: 0 <= i < |names| ==> Separator !in names[i]
    requires NoSeparators(inner)
    ensures NoSeparators(Chain(names, inner))
    decreases |names|
  {
    if |names| > 0 {
      ChainNoSeparators(names[1..], inner);
    }
  }

  /** After splitting, no name contains the separator. */
  lemma {:induction false} SplitHasNoSeparators<V>(n: NamedNode<V>)
    ensures NoSeparators(Split(n))
    decreases n
  {
    var names := SplitName(n.name);
    SplitNamePieces(n.name);
    forall i | 0 <= i < |n.children|
      ensures NoSeparators(Split(n.children[i]))
    {
      SplitHasNoSeparators(n.children[i]);
    }
    ChainNoSeparators(names[..|names| - 1], NamedNode(names[|names| - 1], n.value,
                          seq(|n.children|, i requires 0 <= i < |n.children| => Split(n.children[i]))));
  }

  /** A tree without separators in its names is left as it is. */
  lemma {:induction false} SplitKeepsSplitTree<V>(n: NamedNode<V>)
    requires NoSeparators(n)
    ensures Split(n) == n
    decreases n
  {
    SplitNamePlain(n.name);
    forall i | 0 <= i < |n.children|
      ensures Split(n.children[i]) == n.children[i]
    {
      SplitKeepsSplitTree(n.children[i]);
    }
  }

  /** Splitting twice is splitting once. */
  lemma SplitIdempotent<V>(n: NamedNode<V>)
    ensures Split(Split(n)) == Split(n)
  {
    SplitHasNoSeparators(n);
    SplitKeepsSplitTree(Split(n));
  }

  // -------------------------------------------------------------- join

  /** `JoinBySeparators`: a node with exactly one child is replaced by the
      joined child, renamed `parent.child`, and the parent's value is
      dropped; any other node keeps its name and value and has its children
      joined. */
  function Join<V>(n: NamedNode<V>): NamedNode<V>
    decreases n
  {
    if |n.children| == 1 then
      var c := Join(n.children[0]);
      c.(name := TreePath.JoinElements([n.name, c.name]))
    else
      NamedNode(n.name, n.value, seq(|n.children|, i requires 0 <= i < |n.children| => Join(n.children[i])))
  }

  /** No node has exactly one child. */
  predicate NoSingleChild<V>(n: NamedNode<V>)
    decreases n
  {
    && |n.children| != 1
    && forall i :: 0 <= i < |n.children| ==> NoSingleChild(n.children[i])
  }

  /** After joining, no node has exactly one child. */
  lemma {:induction false} JoinHasNoSingleChild<V>(n: NamedNode<V>)
    ensures NoSingleChild(Join(n))
    decreases n
  {
    if |n.children| == 1 {
      JoinHasNoSingleChild(n.children[0]);
    } else {
      forall i | 0 <= i < |n.children|
        ensures NoSingleChild(Join(n.children[i]))
      {
        JoinHasNoSingleChild(n.children[i]);
      }
    }
  }

  /** A tree without single children is left as it is. */
  lemma {:induction false} JoinKeepsJoinedTree<V>(n: NamedNode<V>)
    requires NoSingleChild(n)
    ensures Join(n) == n
    decreases n
  {
    forall i | 0 <= i < |n.children|
      ensures Join(n.children[i]) == n.children[i]
    {
      JoinKeepsJoinedTree(n.children[i]);
    }
  }

  /** Joining twice is joining once. */
  lemma JoinIdempotent<V>(n: NamedNode<V>)
    ensures Join(Join(n)) == Join(n)
  {
    JoinHasNoSingleChild(n);
    JoinKeepsJoinedTree(Join(n));
  }

  // ------------------------------------------------------ round trips

  lemma JoinPair(a: string, b: string)
    ensures TreePath.JoinElements([a, b]) == a + [Separator] + b
  {
    assert [a, b][1..] == [b];
  }

  /** Appending a piece appends it, after a separator, to the joined text. */
  lemma {:induction false} JoinSnoc(p: seq<string>, x: string)
    requires |p| > 0
    ensures TreePath.JoinElements(p + [x]) == TreePath.JoinElements(p) + [Separator] + x
    decreases |p|
  {
    if |p| == 1 {
      assert p + [x] == [p[0], x];
      JoinPair(p[0], x);
    } else {
      JoinSnoc(p[1..], x);
      assert (p + [x])[1..] == p[1..] + [x];
      JoinCons(p[0], p[1..] + [x]);
      JoinCons(p[0], p[1..]);
      assert [p[0]] + (p[1..] + [x]) == p + [x];
      assert [p[0]] + p[1..] == p;
    }
  }

  /** Joining a chain fuses its names in front of the joined inner node. */
  lemma {:induction false} JoinChain<V>(names: seq<string>, inner: NamedNode<V>)
    ensures Join(Chain(names, inner))
         == Join(inner).(name := TreePath.JoinElements(names + [Join(inner).name]))
    decreases |names|
  {
    var x := Join(inner).name;
    if |names| == 0 {
      assert names + [x] == [x];
    } else {
      var rest := names[1..];
      JoinChain(rest, inner);
      var c := Join(Chain(rest, inner));
      assert c == Join(inner).(name := TreePath.JoinElements(rest + [x]));
      assert Join(Chain(names, inner)) == c.(name := TreePath.JoinElements([names[0], c.name]));
      JoinPair(names[0], c.name);
      assert names + [x] == [names[0]] + (rest + [x]);
      JoinCons(names[0], rest + [x]);
    }
  }

  /** The separator-joined name of split pieces, with one more name after
      them, is the original text followed by that name. */
  lemma NameOfJoinedChain(init: seq<string>, y: string, x: string)
    ensures TreePath.JoinElements(init + [TreePath.JoinElements([y, x])])
         == TreePath.JoinElements(init + [y]) + [Separator] + x
  {
    var yx := TreePath.JoinElements([y, x]);
    JoinPair(y, x);
    if |init| == 0 {
      assert init + [yx] == [yx];
      assert init + [y] == [y];
    } else {
      var j := TreePath.JoinElements(init);
      JoinSnoc(init, yx);
      JoinSnoc(init, y);
      assert j + [Separator] + (y + [Separator] + x) == (j + [Separator] + y) + [Separator] + x;
    }
  }

  /** Splitting does not change what joining produces. */
  lemma {:induction false} JoinAfterSplit<V>(n: NamedNode<V>)
    ensures Join(Split(n)) == Join(n)
    decreases n
  {
    var names := SplitName(n.name);
    var init, y := names[..|names| - 1], names[|names| - 1];
    var kids := seq(|n.children|, i requires 0 <= i < |n.children| => Split(n.children[i]));
    var last := NamedNode(y, n.value, kids);
    assert Split(n) == Chain(init, last);
    forall i | 0 <= i < |n.children|
      ensures Join(kids[i]) == Join(n.children[i])
    {
      JoinAfterSplit(n.children[i]);
    }
    JoinChain(init, last);
    assert init + [y] == names;
    SplitNameJoins(n.name);
    if |n.children| == 1 {
      var c := Join(n.children[0]);
      assert Join(last) == c.(name := TreePath.JoinElements([y, c.name]));
      NameOfJoinedChain(init, y, c.name);
      JoinPair(n.name, c.name);
    } else {
      var joined := seq(|n.children|, i requires 0 <= i < |n.children| => Join(n.children[i]));
      assert Join(last) == NamedNode(y, n.value, joined);
    }
  }

  /** Every node with exactly one child carries no value, so joining loses
      nothing. */
  predicate ValuelessChains<V>(n: NamedNode<V>)
    decreases n
  {
    && (|n.children| == 1 ==> n.value == None)
    && forall i :: 0 <= i < |n.children| ==> ValuelessChains(n.children[i])
  }

  /** Splitting a node with one child and no value: its name pieces chained
      above the split child. */
  lemma SplitSingle<V>(n: NamedNode<V>)
    requires |n.children| == 1 && n.value == None
    ensures Split(n) == Chain(SplitName(n.name), Split(n.children[0]))
  {
    var names := SplitName(n.name);
    var init, y := names[..|names| - 1], names[|names| - 1];
    assert init + [y] == names;
    var sk := seq(|n.children|, i requires 0 <= i < |n.children| => Split(n.children[i]));
    assert sk == [Split(n.children[0])];
    ChainSnoc(init, y, Split(n.children[0]));
  }

  /** Cutting the last element off a concatenation. */
  lemma InitLast<T>(p: seq<T>, q: seq<T>)
    requires |q| > 0
    ensures (p + q)[..|p + q| - 1] == p + q[..|q| - 1]
    ensures (p + q)[|p + q| - 1] == q[|q| - 1]
  {
  }

  /** `Split` of a node whose name splits into `names`. */
  lemma SplitUnfold<V>(n: NamedNode<V>, names: seq<string>)
    requires SplitName(n.name) == names
    ensures |names| > 0
    ensures Split(n) == Chain(names[..|names| - 1], NamedNode(names[|names| - 1], n.value,
                                seq(|n.children|, i requires 0 <= i < |n.children| => Split(n.children[i]))))
  {
  }

  /** Splitting a node renamed `a.b`: the pieces of `a` chained above the
      split node renamed `b`. */
  lemma SplitRenamed<V>(c: NamedNode<V>, a: string, full: string)
    requires full == a + [Separator] + c.name
    ensures Split(NamedNode(full, c.value, c.children)) == Chain(SplitName(a), Split(c))
  {
    SplitNameJoined(a, c.name);
    var names := SplitName(a);
    var cn := SplitName(c.name);
    var n := NamedNode(full, c.value, c.children);
    SplitUnfold(n, names + cn);
    SplitUnfold(c, cn);
    InitLast(names, cn);
    var cinit, cy := cn[..|cn| - 1], cn[|cn| - 1];
    var kn := seq(|n.children|, i requires 0 <= i < |n.children| => Split(n.children[i]));
    var kc := seq(|c.children|, i requires 0 <= i < |c.children| => Split(c.children[i]));
    assert kn == kc;
    ChainConcat(names, cinit, NamedNode(cy, c.value, kc));
  }



  /** Splitting a node whose children were replaced by ones that split
      alike. */
  lemma SplitSameChildren<V>(n: NamedNode<V>, m: NamedNode<V>)
    requires n.name == m.name && n.value == m.value && |n.children| == |m.children|
    requires forall i :: 0 <= i < |n.children| ==> Split(n.children[i]) == Split(m.children[i])
    ensures Split(n) == Split(m)
  {
    var sn := seq(|n.children|, i requires 0 <= i < |n.children| => Split(n.children[i]));
    var sm := seq(|m.children|, i requires 0 <= i < |m.children| => Split(m.children[i]));
    assert sn == sm;
  }

  /** Joining does not change what splitting produces, as long as joining
      drops no value. */
  lemma {:induction false} SplitAfterJoin<V>(n: NamedNode<V>)
    requires ValuelessChains(n)
    ensures Split(Join(n)) == Split(n)
    decreases n
  {
    if |n.children| == 1 {
      SplitAfterJoin(n.children[0]);
      var c := Join(n.children[0]);
      JoinPair(n.name, c.name);
      assert Join(n) == NamedNode(n.name + [Separator] + c.name, c.value, c.children);
      SplitRenamed(c, n.name, n.name + [Separator] + c.name);
      SplitSingle(n);
    } else {
      forall i | 0 <= i < |n.children|
        ensures Split(Join(n).children[i]) == Split(n.children[i])
      {
        SplitAfterJoin(n.children[i]);
      }
      SplitSameChildren(Join(n), n);
    }
  }

  // ----------------------------------------------------------- methods

  /** `SplitBySeparators` as the source computes it: the children are split
      one by one, then wrappers are put around the last piece from the
      second-to-last name outwards. */
  method SplitBySeparators<V>(n: NamedNode<V>) returns (r: NamedNode<V>)
    ensures r == Split(n)
    decreases n
  {
    var names := SplitName(n.name);
    var name := names[|names| - 1];
    names := names[..|names| - 1];
    var kids: seq<NamedNode<V>> := [];
    var i := 0;
    while i < |n.children|
      invariant 0 <= i <= |n.children|
      invariant |kids| == i
      invariant forall j :: 0 <= j < i ==> kids[j] == Split(n.children[j])
    {
      var c := SplitBySeparators(n.children[i]);
      kids := kids + [c];
      i := i + 1;
    }
    assert kids == seq(|n.children|, i requires 0 <= i < |n.children| => Split(n.children[i]));
    r := NamedNode(name, n.value, kids);
    while |names| > 0
      invariant Chain(names, r) == Split(n)
    {
      ChainSnoc(names[..|names| - 1], names[|names| - 1], r);
      assert names[..|names| - 1] + [names[|names| - 1]] == names;
      r := NamedNode(names[|names| - 1], None, [r]);
      names := names[..|names| - 1];
    }
  }

  /** `JoinBySeparators` as the source computes it. */
  method JoinBySeparators<V>(n: NamedNode<V>) returns (r: NamedNode<V>)
    ensures r == Join(n)
    decreases n
  {
    if |n.children| == 1 {
      r := JoinBySeparators(n.children[0]);
      r := r.(name := TreePath.JoinElements([n.name, r.name]));
      return;
    }
    var kids: seq<NamedNode<V>> := [];
    var i := 0;
    while i < |n.children|
      invariant 0 <= i <= |n.children|
      invariant |kids| == i
      invariant forall j :: 0 <= j < i ==> kids[j] == Join(n.children[j])
    {
      var c := JoinBySeparators(n.children[i]);
      kids := kids + [c];
      i := i + 1;
    }
    assert kids == seq(|n.children|, i requires 0 <= i < |n.children| => Join(n.children[i]));
    r := NamedNode(n.name, n.value, kids);
  }
}

=== FILE: named_tree_examples.dfy ===
/** The test trees of `SplitBySeparators` and `JoinBySeparators`: one tree
    with separators in two names, its split form and its joined form. */
module NamedTreeExamples {
  import opened Results
  import opened NamedTree

  function Leaf(name: string): NamedNode<bool> {
    NamedNode(name, None, [])
  }

  function Wrapper(name: string, children: seq<NamedNode<bool>>): NamedNode<bool> {
    NamedNode(name, None, children)
  }

  function Original(): NamedNode<bool> {
    Wrapper("foo.bar", [Wrapper("baz", [Leaf("bay.bax")]), Wrapper("bam", [Leaf("bat")])])
  }

  function SplitTree(): NamedNode<bool> {
    Wrapper("foo", [Wrapper("bar", [Wrapper("baz", [Wrapper("bay", [Leaf("bax")])]),
                                    Wrapper("bam", [Leaf("bat")])])])
  }

  function JoinedTree(): NamedNode<bool> {
    Wrapper("foo.bar", [Leaf("baz.bay.bax"), Leaf("bam.bat")])
  }

  lemma SplitNamePair(a: string, b: string)
    requires Separator !in a && Separator !in b
    ensures SplitName(a + [Separator] + b) == [a, b]
  {
    SplitNameJoined(a, b);
    SplitNamePlain(a);
    SplitNamePlain(b);
  }

  lemma SplitPlainLeaf(name: string)
    requires Separator !in name
    ensures Split(Leaf(name)) == Leaf(name)
  {
    SplitNamePlain(name);
  }

  /** A node whose name has two pieces splits into a wrapper above a node
      holding the value and the split children `kids`. */
  lemma SplitTwoPieces(n: NamedNode<bool>, a: string, b: string, kids: seq<NamedNode<bool>>)
    requires SplitName(n.name) == [a, b]
    requires kids == seq(|n.children|, i requires 0 <= i < |n.children| => Split(n.children[i]))
    ensures Split(n) == NamedNode(a, None, [NamedNode(b, n.value, kids)])
  {
    SplitUnfold(n, [a, b]);
    assert [a, b][..1] == [a];
    assert [a][1..] == [];
  }

  lemma FooBarName()
    ensures SplitName("foo.bar") == ["foo", "bar"]
  {
    assert "foo" + [Separator] + "bar" == "foo.bar";
    SplitNamePair("foo", "bar");
  }

  lemma SplitBay()
    ensures Split(Leaf("bay.bax")) == Wrapper("bay", [Leaf("bax")])
  {
    assert "bay" + [Separator] + "bax" == "bay.bax";
    SplitNamePair("bay", "bax");
    var n := Leaf("bay.bax");
    SplitTwoPieces(n, "bay", "bax", []);
  }

  /** A node whose name has no separator keeps it, above its split
      children `kids`. */
  lemma SplitOnePiece(n: NamedNode<bool>, kids: seq<NamedNode<bool>>)
    requires Separator !in n.name
    requires kids == seq(|n.children|, i requires 0 <= i < |n.children| => Split(n.children[i]))
    ensures Split(n) == NamedNode(n.name, n.value, kids)
  {
    SplitNamePlain(n.name);
    SplitUnfold(n, [n.name]);
    assert [n.name][..0] == [];
  }

  lemma SplitBaz()
    ensures Split(Wrapper("baz", [Leaf("bay.bax")])) == Wrapper("baz", [Wrapper("bay", [Leaf("bax")])])
  {
    SplitBay();
    var n := Wrapper("baz", [Leaf("bay.bax")]);
    var kids := [Wrapper("bay", [Leaf("bax")])];
    assert kids == seq(|n.children|, i requires 0 <= i < |n.children| => Split(n.children[i]));
    assert Separator !in "baz";
    SplitOnePiece(n, kids);
  }

  lemma SplitBam()
    ensures Split(Wrapper("bam", [Leaf("bat")])) == Wrapper("bam", [Leaf("bat")])
  {
    SplitPlainLeaf("bat");
    var n := Wrapper("bam", [Leaf("bat")]);
    var kids := [Leaf("bat")];
    assert kids == seq(|n.children|, i requires 0 <= i < |n.children| => Split(n.children[i]));
    assert Separator !in "bam";
    SplitOnePiece(n, kids);
  }

  /** The names with separators become chains. */
  lemma SplitOriginal()
    ensures Split(Original()) == SplitTree()
  {
    SplitBaz();
    SplitBam();
    FooBarName();
    var n := Original();
    var kids := [Wrapper("baz", [Wrapper("bay", [Leaf("bax")])]), Wrapper("bam", [Leaf("bat")])];
    assert kids == seq(|n.children|, i requires 0 <= i < |n.children| => Split(n.children[i]));
    SplitTwoPieces(n, "foo", "bar", kids);
  }

  /** The split tree is already split. */
  lemma SplitOfSplitTree()
    ensures Split(SplitTree()) == SplitTree()
  {
    SplitOriginal();
    SplitIdempotent(Original());
  }

  /** A wrapper above a single leaf fuses with it into one leaf. */
  lemma JoinWrappedLeaf(a: string, b: string)
    ensures Join(Wrapper(a, [Leaf(b)])) == Leaf(a + [Separator] + b)
  {
    JoinPair(a, b);
  }

  /** Chains of single children become one name. */
  lemma JoinOriginal()
    ensures Join(Original()) == JoinedTree()
  {
    JoinWrappedLeaf("baz", "bay.bax");
    assert "baz" + [Separator] + "bay.bax" == "baz.bay.bax";
    JoinWrappedLeaf("bam", "bat");
    assert "bam" + [Separator] + "bat" == "bam.bat";
    var n := Original();
    assert seq(|n.children|, i requires 0 <= i < |n.children| => Join(n.children[i]))
        == [Leaf("baz.bay.bax"), Leaf("bam.bat")];
  }

  /** The split tree joins to the same tree as the original. */
  lemma JoinSplitTree()
    ensures Join(SplitTree()) == JoinedTree()
  {
    SplitOriginal();
    JoinAfterSplit(Original());
    JoinOriginal();
  }

  /** The joined tree is already joined. */
  lemma JoinOfJoinedTree()
    ensures Join(JoinedTree()) == JoinedTree()
  {
    JoinOriginal();
    JoinIdempotent(Original());
  }

  /** The joined tree splits to the same tree as the original. */
  lemma SplitJoinedTree()
    ensures Split(JoinedTree()) == SplitTree()
  {
    var n := Original();
    assert ValuelessChains(n.children[0].children[0]);
    assert ValuelessChains(n.children[0]) && ValuelessChains(n.children[1]);
    assert ValuelessChains(n);
    SplitAfterJoin(n);
    JoinOriginal();
    SplitOriginal();
  }
}

=== FILE: results.dfy ===
/** Failure-carrying wrappers shared by the whole model: the Go source returns
    `(value, error)` pairs, which become `Result`, and bare `error` returns,
    which become `Outcome`. */
module Results {

  datatype Option<+T> = None | Some(value: T)

  datatype Result<+T, +E> = Ok(value: T) | Err(error: E)

  /** A bare `error` return: `Pass` is the Go `nil` error. */
  datatype Outcome<+E> = Pass | Fail(error: E)
}

=== FILE: storage.dfy ===
/** A store as the orchestrator sees it. Only its current read outcome and
    whether a write to it would fail matter; how it is kept (a file, memory)
    does not. */
module Storage {
  import opened Results
  import opened TreeNode

  /** `content` is what reading the store yields now; `writeFailure` is the
      reason a write would be refused, if it would be. */
  datatype Store = Store(content: Result<Node, string>, writeFailure: Option<string>)

  /** Writing replaces the content with the given tree, unless the store
      refuses writes; a refused write changes nothing. */
  function Write(s: Store, t: Node): (r: Result<Store, string>)
    ensures r.Ok? <==> s.writeFailure.None?
    ensures r.Err? ==> r.error == s.writeFailure.value
    ensures r.Ok? ==> r.value.content == Ok(t) && r.value.writeFailure == s.writeFailure
  {
    match s.writeFailure
    case Some(reason) => Err(reason)
    case None => Ok(s.(content := Ok(t)))
  }
}

=== FILE: tree_compare.dfy ===
/** The structural comparison of two trees (`Compare` and `compare` of the
    tree package): which paths were modified, added or removed. */
module TreeCompare {
  import opened Results
  import opened TreeNode

  /** The three path lists of a comparison; their order is unspecified in
      the source, so they are sets. */
  datatype Diff = Diff(modified: set<Path>, added: set<Path>, removed: set<Path>)

  /** The paths key `k` of `n` contributes below `prefix`: the key itself
      and, when it holds a node, everything below it. */
  function Below(n: Node, prefix: Path, k: string): set<Path>
    requires k in n
    decreases Nested(n), 0
  {
    {prefix + [k]} + (if n[k].Nested? then PathsUnder(n[k].node, prefix + [k]) else {})
  }

  /** Every path strictly below `prefix` in `n`: what comparing `n` with an
      empty node reports, and what a node that vanishes or appears drags
      along with it. */
  function PathsUnder(n: Node, prefix: Path): set<Path>
    decreases Nested(n), 1
  {
    set k, q | k in n && q in Below(n, prefix, k) :: q
  }

  /** What one key `k` of the old node contributes to the modified list:
      nothing when the new node lacks it, the deeper comparison when both
      hold nodes, and the key itself when the two values differ. */
  function ChangedAt(a: Node, b: Node, prefix: Path, k: string): set<Path>
    requires k in a
    decreases Nested(a), 0
  {
    if k !in b then {}
    else if a[k].Nested? && b[k].Nested? then Changed(a[k].node, b[k].node, prefix + [k])
    else if a[k] != b[k] then {prefix + [k]}
    else {}
  }

  /** The paths under `prefix` whose values differ between `a` and `b`
      without both being nodes. */
  function Changed(a: Node, b: Node, prefix: Path): set<Path>
    decreases Nested(a), 1
  {
    set k, q | k in a && q in ChangedAt(a, b, prefix, k) :: q
  }

  /** What one key `k` of the new node `b` contributes to the added list:
      a key the old node lacks comes with everything below it, a node that
      replaced a value brings what it holds, and two nodes are compared
      recursively. Swapping the arguments gives the removed list. */
  function AppearedAt(a: Node, b: Node, prefix: Path, k: string): set<Path>
    requires k in b
    decreases Nested(b), 0
  {
    if k !in a then Below(b, prefix, k)
    else if a[k].Nested? && b[k].Nested? then Appeared(a[k].node, b[k].node, prefix + [k])
    else if b[k].Nested? then PathsUnder(b[k].node, prefix + [k])
    else {}
  }

  /** The paths under `prefix` that `b` holds and `a` does not. */
  function Appeared(a: Node, b: Node, prefix: Path): set<Path>
    decreases Nested(b), 1
  {
    set k, q | k in b && q in AppearedAt(a, b, prefix, k) :: q
  }

  /** `compare` of the source: the old tree `a` against the new tree `b`,
      with every reported path starting with `prefix`. */
  function CompareAt(a: Node, b: Node, prefix: Path): Diff {
    Diff(Changed(a, b, prefix), Appeared(a, b, prefix), Appeared(b, a, prefix))
  }

  /** `Compare` of the source starts at the root. */
  function Compare(a: Node, b: Node): Diff {
    CompareAt(a, b, [])
  }

  /** The value at `p` differs between the two trees, both hold it, and they
      do not both hold a node there. */
  predicate ModifiedAt(a: Node, b: Node, p: Path) {
    && |p| > 0 && At(a, p).Ok? && At(b, p).Ok?
    && !(At(a, p).value.Nested? && At(b, p).value.Nested?)
    && At(a, p).value != At(b, p).value
  }

  /** `b` holds the path `p` and `a` does not. */
  predicate OnlyIn(b: Node, a: Node, p: Path) {
    |p| > 0 && At(b, p).Ok? && !At(a, p).Ok?
  }

  /** A path extending `prefix + [k]` extends `prefix`. */
  lemma ExtendsStep(prefix: Path, k: string, q: Path)
    requires |q| > |prefix| + 1 && q[..|prefix| + 1] == prefix + [k]
    ensures |q| > |prefix| && q[..|prefix|] == prefix
  {
    assert q[..|prefix|] == q[..|prefix| + 1][..|prefix|];
  }

  /** Every path key `k` contributes starts with `prefix + [k]`. */
  lemma {:induction false} BelowExtends(n: Node, prefix: Path, k: string, q: Path)
    requires k in n && q in Below(n, prefix, k)
    ensures |q| > |prefix| && q[..|prefix| + 1] == prefix + [k]
    decreases Nested(n), 0
  {
    if q != prefix + [k] {
      PathsUnderExtends(n[k].node, prefix + [k], q);
    }
  }

  lemma {:induction false} PathsUnderExtends(n: Node, prefix: Path, q: Path)
    requires q in PathsUnder(n, prefix)
    ensures |q| > |prefix| && q[..|prefix|] == prefix
    decreases Nested(n), 1
  {
    var k :| k in n && q in Below(n, prefix, k);
    BelowExtends(n, prefix, k, q);
    assert q[..|prefix|] == q[..|prefix| + 1][..|prefix|];
  }

  /** `PathsUnder` holds exactly the paths that lead somewhere in `n`. */
  lemma {:induction false} PathsUnderSpec(n: Node, prefix: Path, rest: Path)
    ensures prefix + rest in PathsUnder(n, prefix) <==> |rest| > 0 && At(n, rest).Ok?
    decreases |rest|
  {
    if prefix + rest in PathsUnder(n, prefix) {
      PathsUnderExtends(n, prefix, prefix + rest);
    }
    if |rest| > 0 {
      var k, r := rest[0], rest[1..];
      assert rest == [k] + r;
      assert prefix + rest == (prefix + [k]) + r;
      WalkStep(n, k, r);
      if prefix + rest in PathsUnder(n, prefix) {
        var k' :| k' in n && prefix + rest in Below(n, prefix, k');
        BelowExtends(n, prefix, k', prefix + rest);
        assert (prefix + rest)[|prefix|] == k';
      }
      if k in n {
        if n[k].Nested? {
          PathsUnderSpec(n[k].node, prefix + [k], r);
        }
        if |r| == 0 {
          assert prefix + rest == prefix + [k];
        }
        assert prefix + rest in PathsUnder(n, prefix) <==> prefix + rest in Below(n, prefix, k);
      }
    }
  }

  /** Every path key `k` contributes to `Changed` starts with `prefix + [k]`. */
  lemma {:induction false} ChangedAtExtends(a: Node, b: Node, prefix: Path, k: string, q: Path)
    requires k in a && q in ChangedAt(a, b, prefix, k)
    ensures |q| > |prefix| && q[..|prefix| + 1] == prefix + [k]
    decreases Nested(a), 0
  {
    if a[k].Nested? && b[k].Nested? {
      ChangedExtends(a[k].node, b[k].node, prefix + [k], q);
    }
  }

  lemma {:induction false} ChangedExtends(a: Node, b: Node, prefix: Path, q: Path)
    requires q in Changed(a, b, prefix)
    ensures |q| > |prefix| && q[..|prefix|] == prefix
    decreases Nested(a), 1
  {
    var k :| k in a && q in ChangedAt(a, b, prefix, k);
    ChangedAtExtends(a, b, prefix, k, q);
    assert q[..|prefix|] == q[..|prefix| + 1][..|prefix|];
  }

  /** `Changed` holds exactly the paths whose values were modified. */
  lemma {:induction false} ChangedSpec(a: Node, b: Node, prefix: Path, rest: Path)
    ensures prefix + rest in Changed(a, b, prefix) <==> ModifiedAt(a, b, rest)
    decreases |rest|
  {
    if prefix + rest in Changed(a, b, prefix) {
      ChangedExtends(a, b, prefix, prefix + rest);
    }
    if |rest| > 0 {
      var k, r := rest[0], rest[1..];
      assert rest == [k] + r;
      assert prefix + rest == (prefix + [k]) + r;
      WalkStep(a, k, r);
      WalkStep(b, k, r);
      if prefix + rest in Changed(a, b, prefix) {
        var k' :| k' in a && prefix + rest in ChangedAt(a, b, prefix, k');
        ChangedAtExtends(a, b, prefix, k', prefix + rest);
        assert (prefix + rest)[|prefix|] == k';
      }
      if k in a {
        if k in b && a[k].Nested? && b[k].Nested? {
          ChangedSpec(a[k].node, b[k].node, prefix + [k], r);
        }
        if |r| == 0 {
          assert prefix + rest == prefix + [k];
        }
        assert prefix + rest in Changed(a, b, prefix) <==> prefix + rest in ChangedAt(a, b, prefix, k);
      }
    }
  }

  /** Every path key `k` contributes to `Appeared` starts with `prefix + [k]`. */
  lemma {:induction false} AppearedAtExtends(a: Node, b: Node, prefix: Path, k: string, q: Path)
    requires k in b && q in AppearedAt(a, b, prefix, k)
    ensures |q| > |prefix| && q[..|prefix| + 1] == prefix + [k]
    decreases Nested(b), 0
  {
    if k !in a {
      BelowExtends(b, prefix, k, q);
    } else if a[k].Nested? && b[k].Nested? {
      AppearedExtends(a[k].node, b[k].node, prefix + [k], q);
    } else {
      PathsUnderExtends(b[k].node, prefix + [k], q);
    }
  }

  lemma {:induction false} AppearedExtends(a: Node, b: Node, prefix: Path, q: Path)
    requires q in Appeared(a, b, prefix)
    ensures |q| > |prefix| && q[..|prefix|] == prefix
    decreases Nested(b), 1
  {
    var k :| k in b && q in AppearedAt(a, b, prefix, k);
    AppearedAtExtends(a, b, prefix, k, q);
    assert q[..|prefix|] == q[..|prefix| + 1][..|prefix|];
  }

  /** A path in `Appeared` is held by the new tree and not by the old one. */
  lemma {:induction false} AppearedSound(a: Node, b: Node, prefix: Path, rest: Path)
    requires prefix + rest in Appeared(a, b, prefix)
    ensures OnlyIn(b, a, rest)
    decreases |rest|
  {
    var k' :| k' in b && prefix + rest in AppearedAt(a, b, prefix, k');
    AppearedAtExtends(a, b, prefix, k', prefix + rest);
    assert (prefix + rest)[|prefix|] == k';
    var k, r := rest[0], rest[1..];
    assert k == k';
    assert rest == [k] + r;
    assert prefix + rest == (prefix + [k]) + r;
    WalkStep(a, k, r);
    WalkStep(b, k, r);
    if k in a && a[k].Nested? && b[k].Nested? {
      AppearedSound(a[k].node, b[k].node, prefix + [k], r);
    } else if b[k].Nested? && (k in a || prefix + rest != prefix + [k]) {
      PathsUnderSpec(b[k].node, prefix + [k], r);
    }
  }

  /** A path only the new tree holds is in `Appeared`. */
  lemma {:induction false} AppearedComplete(a: Node, b: Node, prefix: Path, rest: Path)
    requires OnlyIn(b, a, rest)
    ensures prefix + rest in Appeared(a, b, prefix)
    decreases |rest|
  {
    var k, r := rest[0], rest[1..];
    assert rest == [k] + r;
    assert prefix + rest == (prefix + [k]) + r;
    WalkStep(a, k, r);
    WalkStep(b, k, r);
    if |r| == 0 {
      assert prefix + rest == prefix + [k];
    } else if k !in a || !a[k].Nested? {
      PathsUnderSpec(b[k].node, prefix + [k], r);
    } else {
      AppearedComplete(a[k].node, b[k].node, prefix + [k], r);
    }
    assert prefix + rest in AppearedAt(a, b, prefix, k);
  }

  /** `Appeared` holds exactly the paths that only the new tree holds. */
  lemma AppearedSpec(a: Node, b: Node, prefix: Path, rest: Path)
    ensures prefix + rest in Appeared(a, b, prefix) <==> OnlyIn(b, a, rest)
  {
    if prefix + rest in Appeared(a, b, prefix) {
      AppearedSound(a, b, prefix, rest);
    }
    if OnlyIn(b, a, rest) {
      AppearedComplete(a, b, prefix, rest);
    }
  }

  /** The comparison of two trees, path by path: a path is modified when
      both trees hold it with different values that are not both nodes,
      added when only the new tree holds it, removed when only the old one
      does. */
  lemma CompareSpec(a: Node, b: Node, q: Path)
    ensures q in Compare(a, b).modified <==> ModifiedAt(a, b, q)
    ensures q in Compare(a, b).added <==> OnlyIn(b, a, q)
    ensures q in Compare(a, b).removed <==> OnlyIn(a, b, q)
  {
    assert [] + q == q;
    ChangedSpec(a, b, [], q);
    AppearedSpec(a, b, [], q);
    AppearedSpec(b, a, [], q);
  }

  /** A tree compared with itself shows no change. */
  lemma CompareSelf(a: Node)
    ensures Compare(a, a) == Diff({}, {}, {})
  {
    forall q
      ensures q !in Compare(a, a).modified && q !in Compare(a, a).added && q !in Compare(a, a).removed
    {
      CompareSpec(a, a, q);
    }
  }

  /** No path is reported twice. */
  lemma CompareDisjoint(a: Node, b: Node)
    ensures Compare(a, b).modified !! Compare(a, b).added
    ensures Compare(a, b).modified !! Compare(a, b).removed
    ensures Compare(a, b).added !! Compare(a, b).removed
  {
    forall q
      ensures !(q in Compare(a, b).modified && q in Compare(a, b).added)
      ensures !(q in Compare(a, b).modified && q in Compare(a, b).removed)
      ensures !(q in Compare(a, b).added && q in Compare(a, b).removed)
    {
      CompareSpec(a, b, q);
    }
  }

  /** Comparing in the other direction swaps added and removed. */
  lemma CompareSwap(a: Node, b: Node)
    ensures Compare(b, a) == Diff(Compare(a, b).modified, Compare(a, b).removed, Compare(a, b).added)
  {
    forall q
      ensures q in Compare(b, a).modified <==> q in Compare(a, b).modified
    {
      CompareSpec(a, b, q);
      CompareSpec(b, a, q);
    }
  }

  /** The source compares a vanished or appeared node with an empty node to
      list what it held; that is exactly `PathsUnder`. */
  lemma CompareWithEmpty(a: Node, prefix: Path)
    ensures CompareAt(a, map[], prefix) == Diff({}, {}, PathsUnder(a, prefix))
    ensures CompareAt(map[], a, prefix) == Diff({}, PathsUnder(a, prefix), {})
  {
    var e: Node := map[];
    assert forall k | k in a :: ChangedAt(a, e, prefix, k) == {};
    assert Changed(a, e, prefix) == {};
    assert Changed(e, a, prefix) == {};
    assert Appeared(a, e, prefix) == {};
    assert forall k | k in a :: AppearedAt(e, a, prefix, k) == Below(a, prefix, k);
    assert Appeared(e, a, prefix) == PathsUnder(a, prefix);
  }

  /** A list is compared as a whole: a difference inside it reports the
      list's own path as modified and nothing below it. */
  lemma CompareListIsLeaf(a: Node, b: Node, q: Path, x: seq<Value>, y: seq<Value>, e: Path)
    requires |q| > 0 && At(a, q) == Ok(List(x)) && At(b, q) == Ok(List(y)) && x != y && |e| > 0
    ensures q in Compare(a, b).modified
    ensures q + e !in Compare(a, b).modified
    ensures q + e !in Compare(a, b).added && q + e !in Compare(a, b).removed
  {
    WalkConcat(Nested(a), q, e);
    WalkConcat(Nested(b), q, e);
    CompareSpec(a, b, q);
    CompareSpec(a, b, q + e);
  }

  /** A node overwritten by a value: the path is modified and everything the
      node held is removed. */
  lemma CompareNodeReplaced(a: Node, b: Node, q: Path, e: Path)
    requires |q| > 0 && IsNodeAt(a, q) && At(b, q).Ok? && !At(b, q).value.Nested?
    requires |e| > 0 && Walk(At(a, q).value, e).Ok?
    ensures q in Compare(a, b).modified && q + e in Compare(a, b).removed
  {
    WalkConcat(Nested(a), q, e);
    WalkConcat(Nested(b), q, e);
    CompareSpec(a, b, q);
    CompareSpec(a, b, q + e);
  }

  /** A value overwritten by a node: the path is modified and everything the
      node holds is added. */
  lemma CompareNodeAppeared(a: Node, b: Node, q: Path, e: Path)
    requires |q| > 0 && At(a, q).Ok? && !At(a, q).value.Nested? && IsNodeAt(b, q)
    requires |e| > 0 && Walk(At(b, q).value, e).Ok?
    ensures q in Compare(a, b).modified && q + e in Compare(a, b).added
  {
    WalkConcat(Nested(a), q, e);
    WalkConcat(Nested(b), q, e);
    CompareSpec(a, b, q);
    CompareSpec(a, b, q + e);
  }
}

=== FILE: tree_error.dfy ===
/** The error kinds of the tree package and the text each one reports.
    Every field is a Go string, and `%v` of a string is the string itself,
    so a message is a plain concatenation. */
module TreeErrors {

  datatype TreeError =
    | ElementNotFound(path: string)
    | PathInsideValue(path: string)
    | PathInvalid(path: string, reason: string)
    | UnexpectedType(path: string, got: string, expected: string)
    | KeyIsNotString(key: string, keyType: string)
    | CannotModify(value: string, valueType: string)

  predicate IsPrefix(p: string, s: string) {
    |p| <= |s| && s[..|p|] == p
  }

  predicate IsSuffix(p: string, s: string) {
    |p| <= |s| && s[|s| - |p|..] == p
  }

  /** The text returned by the `Error()` method of each kind. */
  function Message(e: TreeError): string {
    match e
    case ElementNotFound(p) => "Element at " + p + " not found"
    case PathInsideValue(p) => "Element at " + p + " is pointing inside value"
    case PathInvalid(p, reason) => "Path " + p + " is invalid: " + reason
    case UnexpectedType(p, got, expected) =>
      // The four branches of the source, factored into who and what.
      var subject := if p != "" then "Element at " + p else "Element";
      var kind := if expected != "" then "type " + got + " instead of " + expected else "unexpected type " + got;
      subject + " is of " + kind
    case KeyIsNotString(key, t) => "Key " + key + " is of type " + t + ". Only strings are supported"
    case CannotModify(v, t) => "Trying to write into non pointer or nil value " + v + " of type " + t
  }

  lemma ConcatPrefix(a: string, b: string)
    ensures IsPrefix(a, a + b)
  {
    assert (a + b)[..|a|] == a;
  }

  lemma ConcatSuffix(a: string, b: string)
    ensures IsSuffix(b, a + b)
  {
    assert (a + b)[|a + b| - |b|..] == b;
  }

  /** The message of an unexpected type names the location exactly when the
      error carries one. */
  lemma UnexpectedTypeNamesPath(p: string, got: string, expected: string)
    ensures var m := Message(UnexpectedType(p, got, expected));
      && (p != "" <==> IsPrefix("Element at ", m))
      && (p != "" ==> IsPrefix("Element at " + p + " is of ", m))
  {
    var m := Message(UnexpectedType(p, got, expected));
    var kind := if expected != "" then "type " + got + " instead of " + expected else "unexpected type " + got;
    if p != "" {
      assert m == ("Element at " + p + " is of ") + kind;
      ConcatPrefix("Element at " + p + " is of ", kind);
      assert m == "Element at " + (p + " is of " + kind);
      ConcatPrefix("Element at ", p + " is of " + kind);
    } else {
      assert m == "Element" + " is of " + kind;
      var lit := "Element at ";
      assert m[8] == 'i';
      assert lit[8] == 'a';
      assert |m| >= 11 ==> m[..11][8] == 'i';
    }
  }

  /** The message of an unexpected type ends with the expected type when one
      is set, and otherwise with the type that was found. */
  lemma UnexpectedTypeNamesTypes(p: string, got: string, expected: string)
    ensures var m := Message(UnexpectedType(p, got, expected));
      && (expected != "" ==> IsSuffix(" instead of " + expected, m))
      && (expected == "" ==> IsSuffix("unexpected type " + got, m))
  {
    var m := Message(UnexpectedType(p, got, expected));
    var subject := if p != "" then "Element at " + p else "Element";
    if expected != "" {
      assert m == (subject + " is of type " + got) + (" instead of " + expected);
      ConcatSuffix(subject + " is of type " + got, " instead of " + expected);
    } else {
      assert m == (subject + " is of ") + ("unexpected type " + got);
      ConcatSuffix(subject + " is of ", "unexpected type " + got);
    }
  }

  /** The four formats of `ErrUnexpectedType`, one per combination of a set
      or empty location and expected type. */
  lemma UnexpectedTypeFull(p: string, got: string, expected: string)
    requires p != "" && expected != ""
    ensures Message(UnexpectedType(p, got, expected)) == "Element at " + p + " is of type " + got + " instead of " + expected
  {
    assert " is of " + ("type " + got + " instead of " + expected) == " is of type " + got + " instead of " + expected;
  }

  lemma UnexpectedTypeNoExpected(p: string, got: string)
    requires p != ""
    ensures Message(UnexpectedType(p, got, "")) == "Element at " + p + " is of unexpected type " + got
  {
    assert " is of " + ("unexpected type " + got) == " is of unexpected type " + got;
  }

  lemma UnexpectedTypeNoPath(got: string, expected: string)
    requires expected != ""
    ensures Message(UnexpectedType("", got, expected)) == "Element is of type " + got + " instead of " + expected
  {
    assert "Element" + " is of " + ("type " + got + " instead of " + expected) == "Element is of type " + got + " instead of " + expected;
  }

  lemma UnexpectedTypeBare(got: string)
    ensures Message(UnexpectedType("", got, "")) == "Element is of unexpected type " + got
  {
    assert "Element" + " is of " + ("unexpected type " + got) == "Element is of unexpected type " + got;
  }

  /** The location named in a not-found message can be read back from it. */
  lemma ElementNotFoundInjective(p: string, q: string)
    requires Message(ElementNotFound(p)) == Message(ElementNotFound(q))
    ensures p == q
  {
    var m := Message(ElementNotFound(p));
    assert |p| == |q|;
    assert p == m[11..11 + |p|];
  }

  lemma LastOfConcat(a: string, b: string)
    requires b != []
    ensures (a + b)[|a + b| - 1] == b[|b| - 1]
  {
  }

  /** "Element at P not found" and "Element at P is pointing inside value"
      never coincide, whatever the two locations are. */
  lemma NotFoundDiffersFromInsideValue(p: string, q: string)
    ensures Message(ElementNotFound(p)) != Message(PathInsideValue(q))
  {
    LastOfConcat("Element at " + p, " not found");
    LastOfConcat("Element at " + q, " is pointing inside value");
  }

  /** The path of an invalid-path error comes first and its reason last. */
  lemma PathInvalidNamesPathAndReason(p: string, reason: string)
    ensures IsPrefix("Path " + p + " is invalid: ", Message(PathInvalid(p, reason)))
    ensures IsSuffix(": " + reason, Message(PathInvalid(p, reason)))
  {
    ConcatPrefix("Path " + p + " is invalid: ", reason);
    assert Message(PathInvalid(p, reason)) == ("Path " + p + " is invalid") + (": " + reason);
    ConcatSuffix("Path " + p + " is invalid", ": " + reason);
  }
}

=== FILE: tree_node.dfy ===
/** The configuration tree: a node maps keys to values, and a value is a
    nested node, a list, or a scalar. Paths are sequences of key segments;
    the conversion between the textual path and its segments is a parameter
    wherever the textual form matters. */
module TreeNode {
  import opened Results
  import TreeErrors

  /** The closed union of what a key may hold. A number keeps its exact
      decimal text; a list is an ordered sequence of arbitrary values. */
  datatype Value =
    | Nested(node: map<string, Value>)
    | List(items: seq<Value>)
    | Bool(b: bool)
    | Str(s: string)
    | Number(text: string)
    | Null

  type Node = map<string, Value>
  type Path = seq<string>

  /** `p` is a (not necessarily strict) prefix of `q`. */
  predicate PrefixOf(p: Path, q: Path) {
    |p| <= |q| && q[..|p|] == p
  }

  /** Why a walk along a path stopped. */
  datatype Miss = Missing | InsideValue

  /** Descends from `v` along `p`, one key per step: a value that is not a
      node cannot be entered, and a key the node lacks ends the walk. */
  function Walk(v: Value, p: Path): Result<Value, Miss>
    decreases |p|
  {
    if |p| == 0 then Ok(v)
    else if !v.Nested? then Err(InsideValue)
    else if p[0] !in v.node then Err(Missing)
    else Walk(v.node[p[0]], p[1..])
  }

  /** The walk from the root node `n`. */
  function At(n: Node, p: Path): Result<Value, Miss> {
    Walk(Nested(n), p)
  }

  predicate IsNodeAt(n: Node, p: Path) {
    At(n, p).Ok? && At(n, p).value.Nested?
  }

  /** One step of a walk from a node. */
  lemma WalkStep(n: Node, k: string, p: Path)
    ensures At(n, [k] + p) == (if k in n then Walk(n[k], p) else Err(Missing))
  {
    assert ([k] + p)[1..] == p;
  }

  lemma PrefixOfCons(k: string, p: Path, q: Path)
    ensures PrefixOf([k] + p, [k] + q) <==> PrefixOf(p, q)
  {
    if PrefixOf(p, q) {
      assert ([k] + q)[..|p| + 1] == [k] + q[..|p|];
    }
    if PrefixOf([k] + p, [k] + q) {
      assert ([k] + q)[..|p| + 1] == [k] + q[..|p|];
      assert q[..|p|] == ([k] + q)[..|p| + 1][1..];
    }
  }

  /** Walking `p + q` is walking `p`, then `q` from where `p` ended. */
  lemma {:induction false} WalkConcat(v: Value, p: Path, q: Path)
    ensures Walk(v, p + q) == (if Walk(v, p).Ok? then Walk(Walk(v, p).value, q) else Walk(v, p))
    decreases |p|
  {
    if |p| == 0 {
      assert p + q == q;
    } else if v.Nested? && p[0] in v.node {
      assert (p + q)[1..] == p[1..] + q;
      WalkConcat(v.node[p[0]], p[1..], q);
    }
  }

  /** A walk that succeeds passes through nodes only. */
  lemma {:induction false} WalkThroughNodes(v: Value, p: Path, i: nat)
    requires Walk(v, p).Ok? && i < |p|
    ensures Walk(v, p[..i]).Ok? && Walk(v, p[..i]).value.Nested?
    ensures p[i] in Walk(v, p[..i]).value.node
    decreases |p|
  {
    if i > 0 {
      assert p[..i][1..] == p[1..][..i - 1];
      WalkThroughNodes(v.node[p[0]], p[1..], i - 1);
    }
  }

  // ---------------------------------------------------------------- Get

  /** Reading the value at a path. The decoding of the value into a caller's
      object is left out: the result is the tree value itself. */
  function Get(n: Node, path: string, split: string -> Path): (r: Result<Value, TreeErrors.TreeError>)
    ensures r.Ok? <==> At(n, split(path)).Ok?
    ensures r.Ok? ==> r.value == At(n, split(path)).value
    ensures r == Err(TreeErrors.ElementNotFound(path)) <==> At(n, split(path)) == Err(Missing)
    ensures r == Err(TreeErrors.PathInsideValue(path)) <==> At(n, split(path)) == Err(InsideValue)
  {
    match At(n, split(path))
    case Ok(v) => Ok(v)
    case Err(Missing) => Err(TreeErrors.ElementNotFound(path))
    case Err(InsideValue) => Err(TreeErrors.PathInsideValue(path))
  }

  /** An empty segment list designates the whole tree. */
  lemma GetEmptyPath(n: Node, path: string, split: string -> Path)
    requires split(path) == []
    ensures Get(n, path, split) == Ok(Nested(n))
  {
  }

  /** A segment that the node reached so far lacks makes `Get` report the
      path as not found. */
  lemma GetMissingSegment(n: Node, path: string, split: string -> Path, i: nat)
    requires i < |split(path)|
    requires IsNodeAt(n, split(path)[..i]) && split(path)[i] !in At(n, split(path)[..i]).value.node
    ensures Get(n, path, split) == Err(TreeErrors.ElementNotFound(path))
  {
    var p := split(path);
    assert p == p[..i] + p[i..];
    WalkConcat(Nested(n), p[..i], p[i..]);
  }

  /** A walk that has to enter a value that is not a node makes `Get` report
      that the path points inside a value. */
  lemma GetThroughValue(n: Node, path: string, split: string -> Path, i: nat)
    requires i < |split(path)|
    requires At(n, split(path)[..i]).Ok? && !At(n, split(path)[..i]).value.Nested?
    ensures Get(n, path, split) == Err(TreeErrors.PathInsideValue(path))
  {
    var p := split(path);
    assert p == p[..i] + p[i..];
    WalkConcat(Nested(n), p[..i], p[i..]);
  }

  // --------------------------------------------------------- CreatePath

  /** The tree after `CreatePath`, and the node the path designates in it
      (the source returns the latter and updates the tree in place). */
  datatype Created = Created(root: Node, target: Node)

  /** Makes every prefix of `p` a node: missing keys get an empty node and
      a value that is not a node is overwritten by one. */
  function CreatePath(n: Node, p: Path): (r: Created)
    ensures At(r.root, p) == Ok(Nested(r.target))
    ensures r.target == (if IsNodeAt(n, p) then At(n, p).value.node else map[])
    decreases |p|
  {
    if |p| == 0 then Created(n, n)
    else
      var child := if p[0] in n && n[p[0]].Nested? then n[p[0]].node else map[];
      var sub := CreatePath(child, p[1..]);
      WalkStep(n, p[0], p[1..]);
      WalkStep(n[p[0] := Nested(sub.root)], p[0], p[1..]);
      assert p == [p[0]] + p[1..];
      Created(n[p[0] := Nested(sub.root)], sub.target)
  }

  /** After `CreatePath`, every prefix of the path is a node. */
  lemma {:induction false} CreatePathMakesNodes(n: Node, p: Path, i: nat)
    requires i <= |p|
    ensures IsNodeAt(CreatePath(n, p).root, p[..i])
    decreases |p|
  {
    if i > 0 {
      var child := if p[0] in n && n[p[0]].Nested? then n[p[0]].node else map[];
      assert p[..i][1..] == p[1..][..i - 1];
      CreatePathMakesNodes(child, p[1..], i - 1);
    }
  }

  /** Whatever was reachable and does not lie on the path itself is kept,
      including the other children of the nodes along the path and the
      subtree below its end. */
  lemma {:induction false} CreatePathKeepsOthers(n: Node, p: Path, q: Path)
    requires At(n, q).Ok? && !PrefixOf(q, p)
    ensures At(CreatePath(n, p).root, q) == At(n, q)
    decreases |p|
  {
    if |p| > 0 && |q| > 0 && q[0] == p[0] {
      var child := if p[0] in n && n[p[0]].Nested? then n[p[0]].node else map[];
      assert p == [p[0]] + p[1..] && q == [q[0]] + q[1..];
      PrefixOfCons(p[0], q[1..], p[1..]);
      WalkStep(n, q[0], q[1..]);
      WalkStep(CreatePath(n, p).root, q[0], q[1..]);
      CreatePathKeepsOthers(child, p[1..], q[1..]);
    }
  }

  /** `CreatePath` adds nothing but the nodes on the path. */
  lemma {:induction false} CreatePathAddsOnlyPath(n: Node, p: Path, q: Path)
    requires At(CreatePath(n, p).root, q).Ok?
    ensures At(n, q).Ok? || PrefixOf(q, p)
    decreases |p|
  {
    if |p| > 0 && |q| > 0 && q[0] == p[0] {
      var child := if p[0] in n && n[p[0]].Nested? then n[p[0]].node else map[];
      assert p == [p[0]] + p[1..] && q == [q[0]] + q[1..];
      PrefixOfCons(p[0], q[1..], p[1..]);
      WalkStep(n, q[0], q[1..]);
      WalkStep(CreatePath(n, p).root, q[0], q[1..]);
      CreatePathAddsOnlyPath(child, p[1..], q[1..]);
    }
  }

  /** A second `CreatePath` along the same path changes nothing. */
  lemma {:induction false} CreatePathIdempotent(n: Node, p: Path)
    ensures CreatePath(CreatePath(n, p).root, p) == CreatePath(n, p)
    decreases |p|
  {
    if |p| > 0 {
      var child := if p[0] in n && n[p[0]].Nested? then n[p[0]].node else map[];
      CreatePathIdempotent(child, p[1..]);
      var r := CreatePath(n, p).root;
      assert r[p[0]] == Nested(CreatePath(child, p[1..]).root);
      assert r[p[0] := Nested(CreatePath(child, p[1..]).root)] == r;
    }
  }

  // ---------------------------------------------------------------- Set

  /** Stores `v` at the non-empty path `p`, creating the nodes above it as
      `CreatePath` does. */
  function Put(n: Node, p: Path, v: Value): (r: Node)
    requires |p| > 0
    decreases |p|
  {
    var child := if p[0] in n && n[p[0]].Nested? then n[p[0]].node else map[];
    if |p| == 1 then n[p[0] := v]
    else n[p[0] := Nested(Put(child, p[1..], v))]
  }

  /** `Set` of the source: the value is first converted to a tree value,
      which may fail (`encoded` is that conversion's outcome); then the path
      is split and the value stored. The source indexes the last segment,
      so the split path must not be empty. */
  function Set(n: Node, path: string, split: string -> Path, encoded: Result<Value, TreeErrors.TreeError>)
    : (r: Result<Node, TreeErrors.TreeError>)
    requires encoded.Ok? ==> |split(path)| > 0
    ensures encoded.Err? ==> r == Err(encoded.error)
    ensures encoded.Ok? ==> r.Ok? && At(r.value, split(path)) == Ok(encoded.value)
  {
    if encoded.Err? then Err(encoded.error)
    else PutThenGet(n, split(path), encoded.value); Ok(Put(n, split(path), encoded.value))
  }

  /** Reading back the path just written yields the value written. */
  lemma {:induction false} PutThenGet(n: Node, p: Path, v: Value)
    requires |p| > 0
    ensures At(Put(n, p, v), p) == Ok(v)
    decreases |p|
  {
    var child := if p[0] in n && n[p[0]].Nested? then n[p[0]].node else map[];
    assert p == [p[0]] + p[1..];
    WalkStep(Put(n, p, v), p[0], p[1..]);
    if |p| > 1 {
      PutThenGet(child, p[1..], v);
    }
  }

  /** The previous subtree at `p` is replaced wholesale: below `p` only the
      new value is visible. */
  lemma PutReplacesSubtree(n: Node, p: Path, v: Value, e: Path)
    requires |p| > 0
    ensures At(Put(n, p, v), p + e) == Walk(v, e)
  {
    PutThenGet(n, p, v);
    WalkConcat(Nested(Put(n, p, v)), p, e);
  }

  /** Keys off the path are unchanged. */
  lemma {:induction false} PutKeepsOthers(n: Node, p: Path, v: Value, q: Path)
    requires |p| > 0 && At(n, q).Ok? && !PrefixOf(q, p) && !PrefixOf(p, q)
    ensures At(Put(n, p, v), q) == At(n, q)
    decreases |p|
  {
    if |q| > 0 && q[0] == p[0] {
      var child := if p[0] in n && n[p[0]].Nested? then n[p[0]].node else map[];
      assert p == [p[0]] + p[1..] && q == [q[0]] + q[1..];
      PrefixOfCons(p[0], q[1..], p[1..]);
      PrefixOfCons(p[0], p[1..], q[1..]);
      WalkStep(n, q[0], q[1..]);
      WalkStep(Put(n, p, v), q[0], q[1..]);
      PutKeepsOthers(child, p[1..], v, q[1..]);
    }
  }

  /** `Put` adds nothing off the written path: a path it makes reachable
      was reachable before, lies on the way to `p`, or lies below it. */
  lemma {:induction false} PutAddsOnlyPath(n: Node, p: Path, v: Value, q: Path)
    requires |p| > 0 && At(Put(n, p, v), q).Ok?
    ensures At(n, q).Ok? || PrefixOf(q, p) || PrefixOf(p, q)
    decreases |p|
  {
    if |q| > 0 {
      var child := if p[0] in n && n[p[0]].Nested? then n[p[0]].node else map[];
      assert p == [p[0]] + p[1..] && q == [q[0]] + q[1..];
      WalkStep(n, q[0], q[1..]);
      WalkStep(Put(n, p, v), q[0], q[1..]);
      if q[0] == p[0] && |p| > 1 {
        PutAddsOnlyPath(child, p[1..], v, q[1..]);
        PrefixOfCons(p[0], q[1..], p[1..]);
        PrefixOfCons(p[0], p[1..], q[1..]);
        if |q| > 1 && !(p[0] in n && n[p[0]].Nested?) {
          WalkStep(child, q[1], q[2..]);
          assert q[1..] == [q[1]] + q[2..];
        }
      }
    }
  }

  /** The source's `Set` is `CreatePath` on the path without its last
      segment, followed by an assignment in the node it returns: the node
      above the written key is the created target with that one key
      replaced. */
  lemma {:induction false} PutIsCreatePathThenAssign(n: Node, p: Path, v: Value)
    requires |p| > 0
    ensures At(Put(n, p, v), p[..|p| - 1]) == Ok(Nested(CreatePath(n, p[..|p| - 1]).target[p[|p| - 1] := v]))
    decreases |p|
  {
    if |p| > 1 {
      var child := if p[0] in n && n[p[0]].Nested? then n[p[0]].node else map[];
      PutIsCreatePathThenAssign(child, p[1..], v);
      assert p[1..][..|p| - 2] == p[..|p| - 1][1..];
      assert p[1..][|p| - 2] == p[|p| - 1];
    }
  }

  // -------------------------------------------------------------- Merge

  /** Merges `b` into `a`: where both hold a node the two nodes are merged,
      otherwise the value of `b` wins (lists included); keys of only one
      side are taken from that side. */
  function Merge(a: Node, b: Node): (r: Node)
    ensures r.Keys == a.Keys + b.Keys
    decreases Nested(b)
  {
    map k | k in a.Keys + b.Keys ::
      if k !in b then a[k]
      else if k in a && a[k].Nested? && b[k].Nested? then Nested(Merge(a[k].node, b[k].node))
      else b[k]
  }

  /** Whatever `b` holds at a path is found there after the merge: the same
      value when it is not a node, and a node otherwise. */
  lemma {:induction false} MergeKeepsNew(a: Node, b: Node, q: Path)
    requires At(b, q).Ok?
    ensures At(Merge(a, b), q).Ok?
    ensures At(b, q).value.Nested? ==> At(Merge(a, b), q).value.Nested?
    ensures !At(b, q).value.Nested? ==> At(Merge(a, b), q) == At(b, q)
    decreases |q|
  {
    if |q| > 0 {
      var k := q[0];
      assert q == [k] + q[1..];
      WalkStep(b, k, q[1..]);
      WalkStep(Merge(a, b), k, q[1..]);
      if k in a && a[k].Nested? && b[k].Nested? {
        MergeKeepsNew(a[k].node, b[k].node, q[1..]);
      }
    }
  }

  /** What only `a` holds, at a path `b` has no key for, survives. */
  lemma {:induction false} MergeKeepsOld(a: Node, b: Node, q: Path)
    requires At(a, q).Ok? && At(b, q) == Err(Missing)
    ensures At(Merge(a, b), q) == At(a, q)
    decreases |q|
  {
    var k := q[0];
    assert q == [k] + q[1..];
    WalkStep(a, k, q[1..]);
    WalkStep(b, k, q[1..]);
    WalkStep(Merge(a, b), k, q[1..]);
    if k in b {
      MergeKeepsOld(a[k].node, b[k].node, q[1..]);
    }
  }

  /** A value of `b` that is not a node hides everything `a` held below it. */
  lemma {:induction false} MergeNewValueHides(a: Node, b: Node, q: Path)
    requires At(b, q) == Err(InsideValue)
    ensures At(Merge(a, b), q) == Err(InsideValue)
    decreases |q|
  {
    var k := q[0];
    assert q == [k] + q[1..];
    WalkStep(b, k, q[1..]);
    WalkStep(Merge(a, b), k, q[1..]);
    if k in a && a[k].Nested? && b[k].Nested? {
      MergeNewValueHides(a[k].node, b[k].node, q[1..]);
    }
  }

  /** The merge invents nothing: each path it holds is held by one side. */
  lemma {:induction false} MergeOnlyFromInputs(a: Node, b: Node, q: Path)
    requires At(Merge(a, b), q).Ok?
    ensures At(a, q).Ok? || At(b, q).Ok?
    decreases |q|
  {
    if |q| > 0 {
      var k := q[0];
      assert q == [k] + q[1..];
      WalkStep(a, k, q[1..]);
      WalkStep(b, k, q[1..]);
      WalkStep(Merge(a, b), k, q[1..]);
      if k in a && k in b && a[k].Nested? && b[k].Nested? {
        MergeOnlyFromInputs(a[k].node, b[k].node, q[1..]);
      }
    }
  }

  /** Merging an empty tree into `a` leaves `a`. */
  lemma MergeEmptyRight(a: Node)
    ensures Merge(a, map[]) == a
  {
  }

  /** Merging `a` into an empty tree yields `a`. */
  lemma MergeEmptyLeft(a: Node)
    ensures Merge(map[], a) == a
  {
  }

  /** Merging a tree into itself changes nothing. */
  lemma {:induction false} MergeIdempotent(a: Node)
    ensures Merge(a, a) == a
    decreases Nested(a)
  {
    forall k | k in a && a[k].Nested?
      ensures Merge(a[k].node, a[k].node) == a[k].node
    {
      MergeIdempotent(a[k].node);
    }
  }

  /** Merging the same tree a second time changes nothing. */
  lemma {:induction false} MergeAbsorbs(a: Node, b: Node)
    ensures Merge(Merge(a, b), b) == Merge(a, b)
    decreases Nested(b)
  {
    var m := Merge(a, b);
    forall k | k in b && k in a && a[k].Nested? && b[k].Nested?
      ensures Merge(Merge(a[k].node, b[k].node), b[k].node) == Merge(a[k].node, b[k].node)
    {
      MergeAbsorbs(a[k].node, b[k].node);
    }
    forall k | k in b && b[k].Nested?
      ensures Merge(m, b)[k] == m[k]
    {
      if k in a && a[k].Nested? {
      } else {
        MergeIdempotent(b[k].node);
      }
    }
  }

}

=== FILE: tree_node_examples.dfy ===
/** The test vectors of `CreatePath`, `Set` and `Compare`, in segment form
    (the textual path ".foo.bar" is the segments "foo", "bar"). */
module TreeNodeExamples {
  import opened TreeNode
  import opened TreeCompare

  /** Creating a path in an empty tree builds the chain of empty nodes. */
  lemma CreatePathInEmptyTree()
    ensures CreatePath(map[], ["test", "123", "foo", "bar"])
         == Created(map["test" := Nested(map["123" := Nested(map["foo" := Nested(map["bar" := Nested(map[])])])])], map[])
  {
  }

  /** A value on the way is overwritten by a node; its sibling stays. */
  lemma CreatePathOverwritesValue()
    ensures CreatePath(map["foo" := Nested(map["value" := Str("string"), "bar" := Number("1234")])], ["foo", "bar", "baz"])
         == Created(map["foo" := Nested(map["value" := Str("string"), "bar" := Nested(map["baz" := Nested(map[])])])], map[])
  {
    var inner: Node := map["value" := Str("string"), "bar" := Number("1234")];
    var leaf := CreatePath(map[], ["baz"]);
    assert leaf == Created(map["baz" := Nested(map[])], map[]);
    assert ["foo", "bar", "baz"][1..] == ["bar", "baz"];
    assert ["bar", "baz"][1..] == ["baz"];
    var mid := CreatePath(inner, ["bar", "baz"]);
    assert mid == Created(inner["bar" := Nested(leaf.root)], map[]);
    assert inner["bar" := Nested(leaf.root)] == map["value" := Str("string"), "bar" := Nested(map["baz" := Nested(map[])])];
  }

  /** Setting into an empty tree creates the node above the key. */
  lemma SetIntoEmptyTree()
    ensures Put(map[], ["foo", "bar"], Str("test")) == map["foo" := Nested(map["bar" := Str("test")])]
  {
  }

  /** The node `CreatePath` returns for a path it had to build is a fresh
      empty node; setting a number into it builds the nodes above the key. */
  lemma SetIntoCreatedNode()
    ensures Put(CreatePath(map[], ["foo", "bar", "baz"]).target, ["foo", "bar"], Number("123"))
         == map["foo" := Nested(map["bar" := Number("123")])]
  {
    var e: Node := map[];
    assert !IsNodeAt(e, ["foo", "bar", "baz"]) by {
      WalkStep(e, "foo", ["bar", "baz"]);
      assert ["foo", "bar", "baz"] == ["foo"] + ["bar", "baz"];
    }
  }

  /** Setting replaces the node that was at the path, with all it held. */
  lemma SetReplacesNode()
    ensures Put(CreatePath(map[], ["foo", "bar", "baz"]).root, ["foo", "bar"], Number("123"))
         == map["foo" := Nested(map["bar" := Number("123")])]
  {
    var n := CreatePath(map[], ["foo", "bar", "baz"]).root;
    assert ["foo", "bar", "baz"][1..] == ["bar", "baz"];
    assert ["bar", "baz"][1..] == ["baz"];
    assert n == map["foo" := Nested(map["bar" := Nested(map["baz" := Nested(map[])])])];
    assert ["foo", "bar"][1..] == ["bar"];
    var inner: Node := map["bar" := Nested(map["baz" := Nested(map[])])];
    assert Put(inner, ["bar"], Number("123")) == map["bar" := Number("123")];
  }

  /** In a node with one key, each comparison set is that key's share. */
  lemma PathsUnderSingle(k: string, v: Value, prefix: Path)
    ensures PathsUnder(map[k := v], prefix) == Below(map[k := v], prefix, k)
  {
  }

  lemma ChangedSingle(k: string, v: Value, w: Value, prefix: Path)
    ensures Changed(map[k := v], map[k := w], prefix) == ChangedAt(map[k := v], map[k := w], prefix, k)
  {
  }

  lemma AppearedSingle(k: string, v: Value, w: Value, prefix: Path)
    ensures Appeared(map[k := v], map[k := w], prefix) == AppearedAt(map[k := v], map[k := w], prefix, k)
  {
  }

  lemma PathsUnderChain()
    ensures PathsUnder(map["sub" := Nested(map["sub" := Nested(map[])])], ["c"])
         == {["c", "sub"], ["c", "sub", "sub"]}
  {
    var empty: Node := map[];
    assert PathsUnder(empty, ["c", "sub", "sub"]) == {};
    assert ["c", "sub"] + ["sub"] == ["c", "sub", "sub"];
    PathsUnderSingle("sub", Nested(empty), ["c", "sub"]);
    assert ["c"] + ["sub"] == ["c", "sub"];
    PathsUnderSingle("sub", Nested(map["sub" := Nested(empty)]), ["c"]);
  }

  lemma ChangedNodeToString()
    ensures Changed(map["c" := Nested(map["sub" := Nested(map["sub" := Nested(map[])])])], map["c" := Str("x")], [])
         == {["c"]}
  {
    var v := Nested(map["sub" := Nested(map["sub" := Nested(map[])])]);
    var root: Path := [];
    assert root + ["c"] == ["c"];
    ChangedSingle("c", v, Str("x"), root);
  }

  lemma AppearedNodeToString()
    ensures Appeared(map["c" := Str("x")], map["c" := Nested(map["sub" := Nested(map["sub" := Nested(map[])])])], [])
         == {["c", "sub"], ["c", "sub", "sub"]}
  {
    var mid: Node := map["sub" := Nested(map["sub" := Nested(map[])])];
    var root: Path := [];
    assert root + ["c"] == ["c"];
    PathsUnderChain();
    AppearedSingle("c", Str("x"), Nested(mid), root);
  }

  lemma NothingAppeared()
    ensures Appeared(map["c" := Nested(map["sub" := Nested(map["sub" := Nested(map[])])])], map["c" := Str("x")], [])
         == {}
  {
    var v := Nested(map["sub" := Nested(map["sub" := Nested(map[])])]);
    AppearedSingle("c", v, Str("x"), []);
  }

  /** A node overwritten by a string: the key is modified, its descendants
      removed. */
  lemma CompareNodeToString()
    ensures Compare(map["c" := Nested(map["sub" := Nested(map["sub" := Nested(map[])])])], map["c" := Str("x")])
         == Diff({["c"]}, {}, {["c", "sub"], ["c", "sub", "sub"]})
  {
    ChangedNodeToString();
    AppearedNodeToString();
    NothingAppeared();
  }
}

=== FILE: tree_path.dfy ===
/** Path strings of the tree package and their normalisation.

    `Clean` is two regular-expression replacements. The first deletes every
    match of `^\.+|\.+$|\r|\n`: the run of periods at the very start of the
    text, a run of periods that reaches the very end of the text, and every
    carriage return and line feed. The second replaces every run of two or
    more periods by a single period. Both passes scan the ORIGINAL text of
    their pass, so "start" and "end" are positions of that text, not of what
    is left after earlier deletions. */
module TreePath {

  const Separator: char := '.'

  predicate IsBreak(c: char) {
    c == '\r' || c == '\n'
  }

  predicate AllPeriods(s: string) {
    |s| == 0 || (s[0] == Separator && AllPeriods(s[1..]))
  }

  /** Number of periods that open `s`. */
  function LeadingPeriods(s: string): (n: nat)
    ensures n <= |s|
    ensures AllPeriods(s[..n])
    ensures n < |s| ==> s[n] != Separator
  {
    if |s| == 0 || s[0] != Separator then 0
    else
      var n := 1 + LeadingPeriods(s[1..]);
      assert s[..n][1..] == s[1..][..n - 1];
      n
  }

  /** The first pass on the text that follows the leading periods: at each
      position a match of `\.+$` (periods up to the end) or of `\r`/`\n`
      is deleted; any other character is kept. */
  function StripTail(s: string): string
  {
    if |s| == 0 then ""
    else if IsBreak(s[0]) then StripTail(s[1..])
    else if AllPeriods(s) then ""
    else [s[0]] + StripTail(s[1..])
  }

  /** The first pass, `regexRemove.ReplaceAllString(str, "")`. */
  function RemovePass(s: string): string {
    StripTail(s[LeadingPeriods(s)..])
  }

  /** The second pass, `regexReplacePeriods.ReplaceAllString(str, ".")`. */
  function CollapsePass(s: string): string
  {
    if |s| < 2 then s
    else if s[0] == Separator && s[1] == Separator then CollapsePass(s[1..])
    else [s[0]] + CollapsePass(s[1..])
  }

  /** `Path.Clean`. */
  function Clean(s: string): string {
    CollapsePass(RemovePass(s))
  }

  /** The elements joined with the separator (`strings.Join(str, Separator)`). */
  function JoinElements(elems: seq<string>): string
  {
    if |elems| == 0 then ""
    else if |elems| == 1 then elems[0]
    else elems[0] + [Separator] + JoinElements(elems[1..])
  }

  /** `NewPath`: the elements joined with the separator, then cleaned. */
  function NewPath(elems: seq<string>): string {
    Clean(JoinElements(elems))
  }

  // ---------------------------------------------------------------------
  // Properties of a normalised path

  predicate NoBreaks(s: string) {
    forall i :: 0 <= i < |s| ==> !IsBreak(s[i])
  }

  predicate NoDoublePeriod(s: string) {
    forall i :: 0 <= i < |s| - 1 ==> !(s[i] == Separator && s[i + 1] == Separator)
  }

  /** A normalised path: no line breaks, no period at either end, no empty
      element between two periods. */
  predicate IsClean(s: string) {
    && NoBreaks(s)
    && NoDoublePeriod(s)
    && (|s| > 0 ==> s[0] != Separator && s[|s| - 1] != Separator)
  }

  /** The characters that no pass of `Clean` ever touches. */
  predicate IsPlain(c: char) {
    c != Separator && !IsBreak(c)
  }

  function Plain(s: string): string
  {
    if |s| == 0 then "" else (if IsPlain(s[0]) then [s[0]] else "") + Plain(s[1..])
  }

  /** `t` is obtained from `s` by deleting characters. */
  predicate IsSubsequence(t: string, s: string)
  {
    if |t| == 0 then true
    else if |s| == 0 then false
    else if t[0] == s[0] then IsSubsequence(t[1..], s[1..])
    else IsSubsequence(t, s[1..])
  }

  // ---------------------------------------------------------------------
  // Lemmas about the subsequence relation and the plain characters

  lemma {:induction false} SubsequenceRefl(s: string)
    ensures IsSubsequence(s, s)
  {
    if |s| > 0 {
      SubsequenceRefl(s[1..]);
    }
  }

  /** Deleting from a longer text keeps a subsequence a subsequence. */
  lemma {:induction false} SubsequenceCons(t: string, c: char, s: string)
    requires IsSubsequence(t, s)
    ensures IsSubsequence(t, [c] + s)
    decreases |s|, 1
  {
    var cs := [c] + s;
    assert cs[1..] == s;
    if |t| > 0 && t[0] == c {
      assert |s| > 0;
      if t[0] == s[0] {
        SubsequenceCons(t[1..], s[0], s[1..]);
        assert [s[0]] + s[1..] == s;
      } else {
        SubsequenceDropHead(t, s);
      }
    }
  }

  /** A subsequence without its first character is still a subsequence. */
  lemma {:induction false} SubsequenceDropHead(t: string, s: string)
    requires |t| > 0 && IsSubsequence(t, s)
    ensures IsSubsequence(t[1..], s)
    decreases |s|, 0
  {
    assert |s| > 0;
    if t[0] == s[0] {
      SubsequenceCons(t[1..], s[0], s[1..]);
      assert [s[0]] + s[1..] == s;
    } else {
      SubsequenceDropHead(t, s[1..]);
      SubsequenceCons(t[1..], s[0], s[1..]);
      assert [s[0]] + s[1..] == s;
    }
  }

  lemma {:induction false} SubsequenceTrans(a: string, b: string, c: string)
    requires IsSubsequence(a, b) && IsSubsequence(b, c)
    ensures IsSubsequence(a, c)
    decreases |c|
  {
    if |a| > 0 {
      assert |b| > 0 && |c| > 0;
      if b[0] == c[0] {
        if a[0] == b[0] {
          SubsequenceTrans(a[1..], b[1..], c[1..]);
        } else {
          SubsequenceTrans(a, b[1..], c[1..]);
          SubsequenceCons(a, c[0], c[1..]);
          assert [c[0]] + c[1..] == c;
        }
      } else {
        SubsequenceTrans(a, b, c[1..]);
        SubsequenceCons(a, c[0], c[1..]);
        assert [c[0]] + c[1..] == c;
      }
    }
  }

  lemma {:induction false} SubsequenceSuffix(s: string, k: nat)
    requires k <= |s|
    ensures IsSubsequence(s[k..], s)
  {
    if k == 0 {
      SubsequenceRefl(s);
    } else {
      SubsequenceSuffix(s[1..], k - 1);
      assert s[1..][k - 1..] == s[k..];
      SubsequenceCons(s[k..], s[0], s[1..]);
      assert [s[0]] + s[1..] == s;
    }
  }

  lemma {:induction false} PlainConcat(a: string, b: string)
    ensures Plain(a + b) == Plain(a) + Plain(b)
  {
    if |a| > 0 {
      assert (a + b)[1..] == a[1..] + b;
      PlainConcat(a[1..], b);
    } else {
      assert a + b == b;
    }
  }

  lemma {:induction false} PlainOfPeriods(s: string)
    requires AllPeriods(s)
    ensures Plain(s) == ""
  {
    if |s| > 0 {
      PlainOfPeriods(s[1..]);
    }
  }

  // ---------------------------------------------------------------------
  // The first pass

  lemma {:induction false} StripTailFacts(s: string)
    ensures NoBreaks(StripTail(s))
    ensures Plain(StripTail(s)) == Plain(s)
    ensures IsSubsequence(StripTail(s), s)
  {
    if |s| > 0 {
      StripTailFacts(s[1..]);
      var r := StripTail(s[1..]);
      if IsBreak(s[0]) {
        SubsequenceCons(r, s[0], s[1..]);
      } else if AllPeriods(s) {
        PlainOfPeriods(s);
      } else {
        assert StripTail(s) == [s[0]] + r;
        assert ([s[0]] + r)[1..] == r;
      }
      assert [s[0]] + s[1..] == s;
    }
  }

  /** On a text without line breaks the first pass deletes nothing but a
      final run of periods. */
  lemma {:induction false} StripTailNoBreaks(s: string)
    requires NoBreaks(s)
    ensures StripTail(s) == "" <==> AllPeriods(s)
    ensures StripTail(s) != "" ==> StripTail(s)[0] == s[0]
    ensures StripTail(s) != "" ==> StripTail(s)[|StripTail(s)| - 1] != Separator
    ensures |s| > 0 && s[|s| - 1] != Separator ==> StripTail(s) == s
  {
    if |s| > 0 {
      StripTailNoBreaks(s[1..]);
      if !AllPeriods(s) {
        var r := StripTail(s[1..]);
        assert StripTail(s) == [s[0]] + r;
        if r == "" {
          assert AllPeriods(s[1..]);
          assert forall i :: 1 <= i < |s| ==> s[i] == s[1..][i - 1];
        }
        if |s| > 1 && s[|s| - 1] != Separator {
          assert s[1..][|s| - 2] == s[|s| - 1];
          assert [s[0]] + s[1..] == s;
        }
      } else {
        assert s[|s| - 1] == Separator;
      }
    }
  }

  lemma RemovePassFacts(s: string)
    ensures NoBreaks(RemovePass(s))
    ensures Plain(RemovePass(s)) == Plain(s)
    ensures IsSubsequence(RemovePass(s), s)
  {
    var n := LeadingPeriods(s);
    StripTailFacts(s[n..]);
    SubsequenceSuffix(s, n);
    SubsequenceTrans(RemovePass(s), s[n..], s);
    assert s == s[..n] + s[n..];
    PlainConcat(s[..n], s[n..]);
    PlainOfPeriods(s[..n]);
  }

  /** Without line breaks, the first pass leaves no period at either end. */
  lemma RemovePassEnds(s: string)
    requires NoBreaks(s)
    ensures var r := RemovePass(s); |r| > 0 ==> r[0] != Separator && r[|r| - 1] != Separator
  {
    var n := LeadingPeriods(s);
    var u := s[n..];
    assert NoBreaks(u) by {
      forall i | 0 <= i < |u| ensures !IsBreak(u[i]) {
        assert u[i] == s[n + i];
      }
    }
    StripTailNoBreaks(u);
  }

  /** A trailing run of periods is all the first pass deletes from a text
      without line breaks that ends in anything else. */
  lemma {:induction false} StripTailTrailingPeriods(x: string, y: string)
    requires NoBreaks(x) && |x| > 0 && x[|x| - 1] != Separator
    requires AllPeriods(y)
    ensures StripTail(x + y) == x
  {
    var s := x + y;
    assert s[1..] == x[1..] + y;
    assert !AllPeriods(s) by {
      if AllPeriods(s) {
        AllPeriodsSuffix(s, |x| - 1);
      }
    }
    if |x| > 1 {
      StripTailTrailingPeriods(x[1..], y);
      assert [x[0]] + x[1..] == x;
    } else {
      assert StripTail(y) == "" by { StripTailOfPeriods(y); }
    }
  }

  lemma {:induction false} AllPeriodsSuffix(s: string, k: nat)
    requires AllPeriods(s) && k <= |s|
    ensures AllPeriods(s[k..])
  {
    if k > 0 {
      AllPeriodsSuffix(s[1..], k - 1);
      assert s[1..][k - 1..] == s[k..];
    }
  }

  lemma {:induction false} StripTailOfPeriods(y: string)
    requires AllPeriods(y)
    ensures StripTail(y) == ""
  {
  }

  predicate HasPlain(s: string) {
    exists i :: 0 <= i < |s| && IsPlain(s[i])
  }

  lemma {:induction false} PlainIsNoPeriodRun(s: string, i: nat)
    requires i < |s| && IsPlain(s[i])
    ensures !AllPeriods(s)
  {
    if AllPeriods(s) {
      AllPeriodsSuffix(s, i);
    }
  }

  /** A line break is deleted wherever it stands, and has no other effect,
      as long as some ordinary character follows it. */
  lemma {:induction false} StripTailSkipsBreak(x: string, b: char, y: string)
    requires IsBreak(b) && HasPlain(y)
    ensures StripTail(x + [b] + y) == StripTail(x + y)
  {
    var j :| 0 <= j < |y| && IsPlain(y[j]);
    if |x| == 0 {
      assert x + [b] + y == [b] + y;
      assert ([b] + y)[1..] == y;
      assert x + y == y;
    } else {
      var s := x + [b] + y;
      var t := x + y;
      assert s[1..] == x[1..] + [b] + y;
      assert t[1..] == x[1..] + y;
      StripTailSkipsBreak(x[1..], b, y);
      PlainIsNoPeriodRun(s, |x| + 1 + j);
      PlainIsNoPeriodRun(t, |x| + j);
    }
  }

  // ---------------------------------------------------------------------
  // The second pass

  lemma {:induction false} CollapseNoDouble(s: string)
    ensures NoDoublePeriod(CollapsePass(s))
    ensures |s| > 0 ==> |CollapsePass(s)| > 0 && CollapsePass(s)[0] == s[0]
  {
    if |s| >= 2 {
      var r := CollapsePass(s[1..]);
      CollapseNoDouble(s[1..]);
      if !(s[0] == Separator && s[1] == Separator) {
        var c := [s[0]] + r;
        forall i | 0 <= i < |c| - 1
          ensures !(c[i] == Separator && c[i + 1] == Separator)
        {
          if i > 0 {
            assert c[i] == r[i - 1] && c[i + 1] == r[i];
          }
        }
      }
    }
  }

  lemma {:induction false} CollapseKeepsLast(s: string)
    requires |s| > 0
    ensures |CollapsePass(s)| > 0
    ensures CollapsePass(s)[|CollapsePass(s)| - 1] == s[|s| - 1]
  {
    if |s| >= 2 {
      CollapseKeepsLast(s[1..]);
      assert s[1..][|s| - 2] == s[|s| - 1];
    }
  }

  lemma {:induction false} CollapseOnlyDeletes(s: string)
    ensures NoBreaks(s) ==> NoBreaks(CollapsePass(s))
    ensures Plain(CollapsePass(s)) == Plain(s)
    ensures IsSubsequence(CollapsePass(s), s)
  {
    if |s| < 2 {
      SubsequenceRefl(s);
    } else {
      var r := CollapsePass(s[1..]);
      CollapseOnlyDeletes(s[1..]);
      assert [s[0]] + s[1..] == s;
      if s[0] == Separator && s[1] == Separator {
        SubsequenceCons(r, s[0], s[1..]);
      } else {
        assert ([s[0]] + r)[1..] == r;
      }
    }
  }

  /** A run of two periods shrinks by one in the second pass. */
  lemma {:induction false} CollapseDoublePeriod(x: string, y: string)
    ensures CollapsePass(x + [Separator, Separator] + y) == CollapsePass(x + [Separator] + y)
  {
    var s := x + [Separator, Separator] + y;
    var t := x + [Separator] + y;
    if |x| == 0 {
      assert s == [Separator, Separator] + y;
      assert t == [Separator] + y;
      assert s[1..] == t;
    } else {
      assert s[1..] == x[1..] + [Separator, Separator] + y;
      assert t[1..] == x[1..] + [Separator] + y;
      CollapseDoublePeriod(x[1..], y);
      assert s[1] == t[1];
    }
  }

  lemma {:induction false} CollapseFixesNoDouble(s: string)
    requires NoDoublePeriod(s)
    ensures CollapsePass(s) == s
  {
    if |s| >= 2 {
      assert NoDoublePeriod(s[1..]) by {
        forall i | 0 <= i < |s[1..]| - 1
          ensures !(s[1..][i] == Separator && s[1..][i + 1] == Separator)
        {
          assert s[1..][i] == s[i + 1];
        }
      }
      CollapseFixesNoDouble(s[1..]);
      assert [s[0]] + s[1..] == s;
    }
  }

  // ---------------------------------------------------------------------
  // Clean

  /** The output of `Clean` never contains a carriage return or line feed. */
  lemma CleanHasNoBreaks(s: string)
    ensures NoBreaks(Clean(s))
  {
    RemovePassFacts(s);
    CollapseOnlyDeletes(RemovePass(s));
  }

  /** `Clean` only deletes: periods, carriage returns and line feeds; every
      other character survives, in order. */
  lemma CleanOnlyDeletes(s: string)
    ensures IsSubsequence(Clean(s), s)
    ensures Plain(Clean(s)) == Plain(s)
  {
    RemovePassFacts(s);
    CollapseOnlyDeletes(RemovePass(s));
    SubsequenceTrans(Clean(s), RemovePass(s), s);
  }

  /** On a text without line breaks `Clean` yields a normalised path. */
  lemma CleanIsClean(s: string)
    requires NoBreaks(s)
    ensures IsClean(Clean(s))
  {
    var r := RemovePass(s);
    RemovePassFacts(s);
    RemovePassEnds(s);
    CollapseNoDouble(r);
    CollapseOnlyDeletes(r);
    if |r| > 0 {
      CollapseKeepsLast(r);
    }
  }

  /** A normalised path is left as it is. */
  lemma CleanFixesCleanPaths(s: string)
    requires IsClean(s)
    ensures Clean(s) == s
  {
    assert LeadingPeriods(s) == 0;
    assert s[0..] == s;
    if |s| > 0 {
      StripTailNoBreaks(s);
    }
    CollapseFixesNoDouble(s);
  }

  /** On a text without line breaks `Clean` is idempotent. */
  lemma CleanIdempotent(s: string)
    requires NoBreaks(s)
    ensures Clean(Clean(s)) == Clean(s)
  {
    CleanIsClean(s);
    CleanFixesCleanPaths(Clean(s));
  }

  /** With a line break the first pass can uncover a leading period that it
      no longer strips, so `Clean` is not idempotent in general. */
  lemma CleanNotIdempotentWithBreaks()
    ensures Clean("\n.a") == ".a"
    ensures Clean(Clean("\n.a")) == "a"
  {
    var s := "\n.a";
    assert LeadingPeriods(s) == 0;
    assert !AllPeriods(s[1..]) by { assert s[1..][1] == 'a'; }
    assert !AllPeriods(s[2..]) by { assert s[2..][0] == 'a'; }
    assert StripTail(s[3..]) == "";
    assert RemovePass(s) == ".a";
    var t := ".a";
    assert LeadingPeriods(t) == 1;
    assert RemovePass(t) == "a";
  }

  /** Joining two period-free-at-the-seam paths with one separator creates
      no doubled period. */
  lemma NoDoublePeriodJoin(a: string, b: string)
    requires NoDoublePeriod(a) && NoDoublePeriod(b)
    requires |a| > 0 && a[|a| - 1] != Separator
    requires |b| > 0 && b[0] != Separator
    ensures NoDoublePeriod(a + [Separator] + b)
  {
    var s := a + [Separator] + b;
    forall i | 0 <= i < |s| - 1
      ensures !(s[i] == Separator && s[i + 1] == Separator)
    {
      if i < |a| - 1 {
        assert s[i] == a[i] && s[i + 1] == a[i + 1];
      } else if i == |a| - 1 {
        assert s[i] == a[|a| - 1];
      } else if i == |a| {
        assert s[i + 1] == b[0];
      } else {
        assert s[i] == b[i - |a| - 1] && s[i + 1] == b[i - |a|];
      }
    }
  }

  /** Elements without line breaks join into a text without line breaks. */
  lemma {:induction false} JoinNoBreaks(elems: seq<string>)
    requires forall i :: 0 <= i < |elems| ==> NoBreaks(elems[i])
    ensures NoBreaks(JoinElements(elems))
    decreases |elems|
  {
    if |elems| > 1 {
      assert forall i :: 0 <= i < |elems[1..]| ==> elems[1..][i] == elems[i + 1];
      JoinNoBreaks(elems[1..]);
      var a, rest := elems[0], JoinElements(elems[1..]);
      assert NoBreaks(a);
      forall i | 0 <= i < |a + [Separator] + rest|
        ensures !IsBreak((a + [Separator] + rest)[i])
      {
        if i > |a| {
          assert (a + [Separator] + rest)[i] == rest[i - |a| - 1];
        }
      }
    }
  }

  /** `NewPath` of elements without line breaks is a normalised path, and
      building a path from it alone changes nothing. */
  lemma NewPathIsClean(elems: seq<string>)
    requires forall i :: 0 <= i < |elems| ==> NoBreaks(elems[i])
    ensures IsClean(NewPath(elems))
    ensures NewPath([NewPath(elems)]) == NewPath(elems)
  {
    JoinNoBreaks(elems);
    CleanIsClean(JoinElements(elems));
    CleanFixesCleanPaths(NewPath(elems));
  }
}

=== FILE: tree_path_examples.dfy ===
/** The test vectors of `Clean` and `NewPath`, derived pass by pass from the
    general lemmas about the two passes. */
module TreePathExamples {
  import opened TreePath

  /** `Clean` of a text without line breaks: the leading periods go, then a
      trailing run of periods, then doubled periods shrink. */
  lemma CleanVia(s: string, n: nat, u: string, r: string, c: string)
    requires n <= |s| && LeadingPeriods(s) == n && s[n..] == u
    requires StripTail(u) == r && CollapsePass(r) == c
    ensures Clean(s) == c
  {
  }

  lemma NewPathVia(elems: seq<string>, s: string, c: string)
    requires JoinElements(elems) == s && Clean(s) == c
    ensures NewPath(elems) == c
  {
  }

  lemma FooBarIsClean()
    ensures IsClean("foo.bar")
    ensures CollapsePass("foo.bar") == "foo.bar"
  {
    var a := "foo.bar";
    assert forall i :: 0 <= i < |a| - 1 ==> !(a[i] == Separator && a[i + 1] == Separator);
    CollapseFixesNoDouble(a);
  }

  lemma FooFooBazBarIsClean()
    ensures IsClean("foo.foo.baz.bar")
    ensures CollapsePass("foo.foo.baz.bar") == "foo.foo.baz.bar"
  {
    assert NoDoublePeriod("foo") && NoDoublePeriod("bar") && NoDoublePeriod("baz");
    NoDoublePeriodJoin("baz", "bar");
    assert "baz" + [Separator] + "bar" == "baz.bar";
    NoDoublePeriodJoin("foo", "baz.bar");
    assert "foo" + [Separator] + "baz.bar" == "foo.baz.bar";
    NoDoublePeriodJoin("foo", "foo.baz.bar");
    assert "foo" + [Separator] + "foo.baz.bar" == "foo.foo.baz.bar";
    assert NoBreaks("foo.foo.baz.bar");
    CollapseFixesNoDouble("foo.foo.baz.bar");
  }

  /** "foo..bar" shrinks to "foo.bar" in the second pass. */
  lemma CollapseFooBar()
    ensures CollapsePass("foo..bar") == "foo.bar"
  {
    assert "foo" + [Separator, Separator] + "bar" == "foo..bar";
    assert "foo" + [Separator] + "bar" == "foo.bar";
    CollapseDoublePeriod("foo", "bar");
    FooBarIsClean();
  }

  lemma StripFooBar()
    ensures StripTail("foo.bar.") == "foo.bar"
    ensures StripTail("foo..bar.") == "foo..bar"
    ensures StripTail("foo..bar") == "foo..bar"
  {
    assert NoBreaks("foo.bar");
    assert "foo.bar" + "." == "foo.bar.";
    StripTailTrailingPeriods("foo.bar", ".");
    assert NoBreaks("foo..bar");
    assert "foo..bar" + "." == "foo..bar.";
    StripTailTrailingPeriods("foo..bar", ".");
    assert "foo..bar" + "" == "foo..bar";
    StripTailTrailingPeriods("foo..bar", "");
  }

  /** A normalised path is returned unchanged. */
  lemma CleanKeepsCleanPath()
    ensures Clean("foo.bar") == "foo.bar"
  {
    FooBarIsClean();
    CleanFixesCleanPaths("foo.bar");
  }

  /** Periods at both ends are stripped. */
  lemma CleanStripsOuterPeriods()
    ensures Clean(".foo.bar.") == "foo.bar"
  {
    assert LeadingPeriods(".foo.bar.") == 1;
    assert ".foo.bar."[1..] == "foo.bar.";
    StripFooBar();
    FooBarIsClean();
    CleanVia(".foo.bar.", 1, "foo.bar.", "foo.bar", "foo.bar");
  }

  lemma StripBreaks()
    ensures StripTail("foo.\n\r.bar.") == "foo..bar"
  {
    assert IsPlain("\r.bar."[2]);
    assert "foo." + ['\n'] + "\r.bar." == "foo.\n\r.bar.";
    assert "foo." + "\r.bar." == "foo.\r.bar.";
    StripTailSkipsBreak("foo.", '\n', "\r.bar.");
    assert IsPlain(".bar."[1]);
    assert "foo." + ['\r'] + ".bar." == "foo.\r.bar.";
    assert "foo." + ".bar." == "foo..bar.";
    StripTailSkipsBreak("foo.", '\r', ".bar.");
    StripFooBar();
  }

  /** Line breaks go, and the periods they separated collapse into one. */
  lemma CleanDropsBreaks()
    ensures Clean(".foo.\n\r.bar.") == "foo.bar"
  {
    assert LeadingPeriods(".foo.\n\r.bar.") == 1;
    assert ".foo.\n\r.bar."[1..] == "foo.\n\r.bar.";
    StripBreaks();
    CollapseFooBar();
    CleanVia(".foo.\n\r.bar.", 1, "foo.\n\r.bar.", "foo..bar", "foo.bar");
  }

  /** Two plain elements are joined with a period. */
  lemma NewPathJoinsPlainElements()
    ensures NewPath(["foo", "bar"]) == "foo.bar"
  {
    assert ["foo", "bar"][1..] == ["bar"];
    assert JoinElements(["foo", "bar"]) == "foo.bar";
    CleanKeepsCleanPath();
    NewPathVia(["foo", "bar"], "foo.bar", "foo.bar");
  }

  /** `Clean("foo..bar")`, the joined path of the next two examples. */
  lemma CleanDoubledSeparator()
    ensures Clean("foo..bar") == "foo.bar"
  {
    assert LeadingPeriods("foo..bar") == 0;
    assert "foo..bar"[0..] == "foo..bar";
    StripFooBar();
    CollapseFooBar();
    CleanVia("foo..bar", 0, "foo..bar", "foo..bar", "foo.bar");
  }

  /** A period opening an element merges with the separator. */
  lemma NewPathMergesOpeningPeriod()
    ensures NewPath(["foo", ".bar"]) == "foo.bar"
  {
    assert ["foo", ".bar"][1..] == [".bar"];
    assert JoinElements(["foo", ".bar"]) == "foo..bar";
    CleanDoubledSeparator();
    NewPathVia(["foo", ".bar"], "foo..bar", "foo.bar");
  }

  /** A period closing an element merges with the separator. */
  lemma NewPathMergesClosingPeriod()
    ensures NewPath(["foo.", "bar"]) == "foo.bar"
  {
    assert ["foo.", "bar"][1..] == ["bar"];
    assert JoinElements(["foo.", "bar"]) == "foo..bar";
    CleanDoubledSeparator();
    NewPathVia(["foo.", "bar"], "foo..bar", "foo.bar");
  }

  lemma JoinOuterPeriods()
    ensures JoinElements([".foo.", ".bar."]) == ".foo...bar."
  {
    var e := [".foo.", ".bar."];
    assert e[1..] == [".bar."];
    assert JoinElements(e[1..]) == ".bar.";
    assert ".foo." + [Separator] + ".bar." == ".foo...bar.";
  }

  lemma TripleSeparator()
    ensures StripTail("foo...bar.") == "foo...bar"
    ensures CollapsePass("foo...bar") == "foo.bar"
  {
    assert NoBreaks("foo...bar");
    assert "foo...bar" + "." == "foo...bar.";
    StripTailTrailingPeriods("foo...bar", ".");
    assert "foo" + [Separator, Separator] + ".bar" == "foo...bar";
    assert "foo" + [Separator] + ".bar" == "foo..bar";
    CollapseDoublePeriod("foo", ".bar");
    CollapseFooBar();
  }

  /** Periods at the ends of the joined path are stripped, and the three
      periods at the seam become one. */
  lemma NewPathStripsOuterPeriods()
    ensures NewPath([".foo.", ".bar."]) == "foo.bar"
  {
    JoinOuterPeriods();
    assert LeadingPeriods(".foo...bar.") == 1;
    assert ".foo...bar."[1..] == "foo...bar.";
    TripleSeparator();
    CleanVia(".foo...bar.", 1, "foo...bar.", "foo...bar", "foo.bar");
    NewPathVia([".foo.", ".bar."], ".foo...bar.", "foo.bar");
  }

  lemma CollapseFooFooBazBar()
    ensures CollapsePass("foo..foo.baz.bar") == "foo.foo.baz.bar"
  {
    assert "foo" + [Separator, Separator] + "foo.baz.bar" == "foo..foo.baz.bar";
    assert "foo" + [Separator] + "foo.baz.bar" == "foo.foo.baz.bar";
    CollapseDoublePeriod("foo", "foo.baz.bar");
    FooFooBazBarIsClean();
  }

  /** Periods inside an element stay. */
  lemma NewPathKeepsInnerPeriods()
    ensures NewPath(["foo.", "foo.baz", "bar"]) == "foo.foo.baz.bar"
  {
    assert ["foo.", "foo.baz", "bar"][1..] == ["foo.baz", "bar"];
    assert ["foo.baz", "bar"][1..] == ["bar"];
    assert JoinElements(["foo.baz", "bar"]) == "foo.baz.bar";
    assert JoinElements(["foo.", "foo.baz", "bar"]) == "foo..foo.baz.bar";
    assert LeadingPeriods("foo..foo.baz.bar") == 0;
    assert "foo..foo.baz.bar"[0..] == "foo..foo.baz.bar";
    assert NoBreaks("foo..foo.baz.bar");
    StripTailNoBreaks("foo..foo.baz.bar");
    CollapseFooFooBazBar();
    CleanVia("foo..foo.baz.bar", 0, "foo..foo.baz.bar", "foo..foo.baz.bar", "foo.foo.baz.bar");
    NewPathVia(["foo.", "foo.baz", "bar"], "foo..foo.baz.bar", "foo.foo.baz.bar");
  }
}

=== FILE: tree_vectors.dfy ===
/** The shared test trees of the tree package: an old tree `A`, a new tree
    `B`, and `AB`, what merging `B` into `A` gives. */
module TreeVectors {
  import opened TreeNode
  import opened TreeCompare

  function SubA(): Node {
    map["a" := Nested(map["foo" := Str("bar")]),
        "b" := Nested(map["someFloat" := Number("123.456")]),
        "c" := Nested(map["sub" := Nested(map["sub" := Nested(map[])])]),
        "e" := Nested(map["sub" := Nested(map["val" := Str("string")])]),
        "f" := List([Nested(map["sub" := Nested(map[])]), Nested(map["val" := Bool(true)])]),
        "g" := List([Nested(map["sub" := Nested(map["val" := Bool(false)])]), Nested(map["val" := Bool(true)])])]
  }

  function SubB(): Node {
    map["a" := Nested(map["foo" := Nested(map["sub" := Nested(map[])])]),
        "b" := Nested(map["someFloat" := Number("123.4567")]),
        "c" := Str("NothingToSeeHere"),
        "d" := Nested(map["sub" := Nested(map["sub" := Nested(map[])])]),
        "f" := List([Nested(map["sub" := Nested(map["val" := Bool(false)])]), Nested(map["val" := Bool(true)])]),
        "g" := List([Nested(map["sub" := Nested(map["val" := Bool(false)])]), Nested(map["val" := Bool(true)])])]
  }

  /** `B` where it has a key, `A` for the key `e` only it has. */
  function SubAB(): Node {
    SubB()["e" := SubA()["e"]]
  }

  function TreeA(): Node {
    map["someString" := Str("someString"), "someNumber" := Number("123"), "subnode" := Nested(SubA())]
  }

  function TreeB(): Node {
    map["someString" := Str("someStringEdited"), "someNumber" := Number("123"), "subnode" := Nested(SubB())]
  }

  function TreeAB(): Node {
    map["someString" := Str("someStringEdited"), "someNumber" := Number("123"), "subnode" := Nested(SubAB())]
  }

  /** Where both sides hold a node the merge descends; where `B` holds a
      value or a list, `B` wins; a key only `A` has stays. */
  lemma MergeSubnodeA()
    ensures Merge(SubA(), SubB())["a"] == SubB()["a"]
  {
    assert Merge(SubA()["a"].node, SubB()["a"].node) == SubB()["a"].node;
  }

  lemma MergeSubnodeB()
    ensures Merge(SubA(), SubB())["b"] == SubB()["b"]
  {
    assert Merge(SubA()["b"].node, SubB()["b"].node) == SubB()["b"].node;
  }

  lemma MergeSubnodeValues()
    ensures forall k | k in ["c", "d", "f", "g"] :: k in SubB() && Merge(SubA(), SubB())[k] == SubB()[k]
  {
  }

  lemma MergeSubnodeE()
    ensures "e" in Merge(SubA(), SubB()) && Merge(SubA(), SubB())["e"] == SubA()["e"]
  {
  }

  lemma MergeSubnodeKeys()
    ensures Merge(SubA(), SubB()).Keys == SubAB().Keys == {"a", "b", "c", "d", "e", "f", "g"}
  {
  }

  /** Two nodes with the same keys that agree on each key are equal. */
  lemma SameNode(m: Node, n: Node)
    requires m.Keys == n.Keys && forall k | k in m :: m[k] == n[k]
    ensures m == n
  {
  }

  lemma MergeSubnodes()
    ensures Merge(SubA(), SubB()) == SubAB()
  {
    var m := Merge(SubA(), SubB());
    MergeSubnodeKeys();
    MergeSubnodeA();
    MergeSubnodeB();
    MergeSubnodeValues();
    MergeSubnodeE();
    forall k | k in m ensures m[k] == SubAB()[k] {
      assert k in ["c", "d", "f", "g"] || k == "a" || k == "b" || k == "e";
    }
    SameNode(m, SubAB());
  }

  lemma MergeTopKeys()
    ensures Merge(TreeA(), TreeB()).Keys == TreeAB().Keys == {"someString", "someNumber", "subnode"}
  {
  }

  lemma MergeTopValues()
    ensures Merge(TreeA(), TreeB())["someString"] == TreeAB()["someString"]
    ensures Merge(TreeA(), TreeB())["someNumber"] == TreeAB()["someNumber"]
    ensures Merge(TreeA(), TreeB())["subnode"] == Nested(Merge(SubA(), SubB()))
  {
  }

  /** Merging `B` into `A` gives `AB`: nodes merge key by key, the values
      and lists of `B` win, and `e`, which only `A` has, stays. */
  lemma MergeAB()
    ensures Merge(TreeA(), TreeB()) == TreeAB()
  {
    MergeSubnodes();
    MergeTopKeys();
    MergeTopValues();
    var m := Merge(TreeA(), TreeB());
    forall k | k in m ensures m[k] == TreeAB()[k] {
      assert k == "someString" || k == "someNumber" || k == "subnode";
    }
    SameNode(m, TreeAB());
  }

  // ------------------------------------------------- Comparing A with B

  /** A comparison set over a node with six keys is the union of the six
      keys' shares. */
  lemma ChangedOfSix(a: Node, b: Node, prefix: Path, k1: string, k2: string, k3: string,
                     k4: string, k5: string, k6: string, s: set<Path>)
    requires a.Keys == {k1, k2, k3, k4, k5, k6}
    requires s == ChangedAt(a, b, prefix, k1) + ChangedAt(a, b, prefix, k2) + ChangedAt(a, b, prefix, k3)
                + ChangedAt(a, b, prefix, k4) + ChangedAt(a, b, prefix, k5) + ChangedAt(a, b, prefix, k6)
    ensures Changed(a, b, prefix) == s
  {
  }

  lemma AppearedOfSix(a: Node, b: Node, prefix: Path, k1: string, k2: string, k3: string,
                      k4: string, k5: string, k6: string, s: set<Path>)
    requires b.Keys == {k1, k2, k3, k4, k5, k6}
    requires s == AppearedAt(a, b, prefix, k1) + AppearedAt(a, b, prefix, k2) + AppearedAt(a, b, prefix, k3)
                + AppearedAt(a, b, prefix, k4) + AppearedAt(a, b, prefix, k5) + AppearedAt(a, b, prefix, k6)
    ensures Appeared(a, b, prefix) == s
  {
  }

  lemma ChangedOfThree(a: Node, b: Node, prefix: Path, k1: string, k2: string, k3: string, s: set<Path>)
    requires a.Keys == {k1, k2, k3}
    requires s == ChangedAt(a, b, prefix, k1) + ChangedAt(a, b, prefix, k2) + ChangedAt(a, b, prefix, k3)
    ensures Changed(a, b, prefix) == s
  {
  }

  lemma AppearedOfThree(a: Node, b: Node, prefix: Path, k1: string, k2: string, k3: string, s: set<Path>)
    requires b.Keys == {k1, k2, k3}
    requires s == AppearedAt(a, b, prefix, k1) + AppearedAt(a, b, prefix, k2) + AppearedAt(a, b, prefix, k3)
    ensures Appeared(a, b, prefix) == s
  {
  }

  /** The chain `sub.sub` of empty nodes below any prefix. */
  lemma PathsUnderSubSub(prefix: Path)
    ensures PathsUnder(map["sub" := Nested(map["sub" := Nested(map[])])], prefix)
         == {prefix + ["sub"], prefix + ["sub", "sub"]}
  {
    var empty: Node := map[];
    var inner: Node := map["sub" := Nested(empty)];
    assert PathsUnder(empty, prefix + ["sub", "sub"]) == {};
    assert prefix + ["sub"] + ["sub"] == prefix + ["sub", "sub"];
    assert PathsUnder(inner, prefix + ["sub"]) == Below(inner, prefix + ["sub"], "sub");
    assert PathsUnder(map["sub" := Nested(inner)], prefix) == Below(map["sub" := Nested(inner)], prefix, "sub");
  }

  /** One key, a string in `A` and a node in `B`: only the key is
      modified. */
  lemma ChangedStringToNode(prefix: Path, k: string, x: string, n: Node)
    ensures Changed(map[k := Str(x)], map[k := Nested(n)], prefix) == {prefix + [k]}
  {
    assert Changed(map[k := Str(x)], map[k := Nested(n)], prefix)
        == ChangedAt(map[k := Str(x)], map[k := Nested(n)], prefix, k);
  }

  /** One key, two different numbers: only the key is modified. */
  lemma ChangedNumber(prefix: Path, k: string, x: string, y: string)
    requires x != y
    ensures Changed(map[k := Number(x)], map[k := Number(y)], prefix) == {prefix + [k]}
  {
    assert Changed(map[k := Number(x)], map[k := Number(y)], prefix)
        == ChangedAt(map[k := Number(x)], map[k := Number(y)], prefix, k);
  }

  /** The modified shares of the subnode keys. */
  lemma ChangedSubnodeA()
    ensures ChangedAt(SubA(), SubB(), ["subnode"], "a") == {["subnode", "a", "foo"]}
  {
    ChangedStringToNode(["subnode", "a"], "foo", "bar", map["sub" := Nested(map[])]);
    assert ["subnode", "a"] + ["foo"] == ["subnode", "a", "foo"];
    assert ["subnode"] + ["a"] == ["subnode", "a"];
  }

  lemma ChangedSubnodeB()
    ensures ChangedAt(SubA(), SubB(), ["subnode"], "b") == {["subnode", "b", "someFloat"]}
  {
    ChangedNumber(["subnode", "b"], "someFloat", "123.456", "123.4567");
    assert ["subnode", "b"] + ["someFloat"] == ["subnode", "b", "someFloat"];
    assert ["subnode"] + ["b"] == ["subnode", "b"];
  }

  lemma ChangedSubnodeValues()
    ensures ChangedAt(SubA(), SubB(), ["subnode"], "c") == {["subnode", "c"]}
    ensures ChangedAt(SubA(), SubB(), ["subnode"], "e") == {}
    ensures ChangedAt(SubA(), SubB(), ["subnode"], "g") == {}
  {
    assert ["subnode"] + ["c"] == ["subnode", "c"];
  }

  /** The lists `f` differ in their first item, so `f` is modified as a
      whole. */
  lemma ChangedSubnodeF()
    ensures ChangedAt(SubA(), SubB(), ["subnode"], "f") == {["subnode", "f"]}
  {
    assert ["subnode"] + ["f"] == ["subnode", "f"];
    assert SubA()["f"].items[0] != SubB()["f"].items[0] by {
      assert "val" !in SubA()["f"].items[0].node["sub"].node;
    }
  }

  lemma SubnodeKeys()
    ensures SubA().Keys == {"a", "b", "c", "e", "f", "g"}
    ensures SubB().Keys == {"a", "b", "c", "d", "f", "g"}
  {
  }

  /** The subnode's modified paths. */
  lemma ChangedSubnode()
    ensures Changed(SubA(), SubB(), ["subnode"])
         == {["subnode", "a", "foo"], ["subnode", "b", "someFloat"], ["subnode", "c"], ["subnode", "f"]}
  {
    SubnodeKeys();
    ChangedSubnodeA();
    ChangedSubnodeB();
    ChangedSubnodeValues();
    ChangedSubnodeF();
    ChangedOfSix(SubA(), SubB(), ["subnode"], "a", "b", "c", "e", "f", "g",
                 {["subnode", "a", "foo"], ["subnode", "b", "someFloat"], ["subnode", "c"], ["subnode", "f"]});
  }

  /** The added shares of the subnode keys: below `a.foo`, which became a
      node, and all of `d`, which is new. */
  lemma AppearedSubnodeA()
    ensures AppearedAt(SubA(), SubB(), ["subnode"], "a") == {["subnode", "a", "foo", "sub"]}
  {
    var fa: Node := map["foo" := Str("bar")];
    var inner: Node := map["sub" := Nested(map[])];
    var fb: Node := map["foo" := Nested(inner)];
    assert ["subnode"] + ["a"] == ["subnode", "a"];
    assert ["subnode", "a"] + ["foo"] == ["subnode", "a", "foo"];
    assert ["subnode", "a", "foo"] + ["sub"] == ["subnode", "a", "foo", "sub"];
    assert PathsUnder(map[], ["subnode", "a", "foo", "sub"]) == {};
    assert PathsUnder(inner, ["subnode", "a", "foo"]) == Below(inner, ["subnode", "a", "foo"], "sub");
    assert Appeared(fa, fb, ["subnode", "a"]) == AppearedAt(fa, fb, ["subnode", "a"], "foo");
  }

  lemma AppearedSubnodeB()
    ensures AppearedAt(SubA(), SubB(), ["subnode"], "b") == {}
  {
    var ga: Node := map["someFloat" := Number("123.456")];
    var gb: Node := map["someFloat" := Number("123.4567")];
    assert Appeared(ga, gb, ["subnode", "b"]) == AppearedAt(ga, gb, ["subnode", "b"], "someFloat");
  }

  lemma AppearedSubnodeD()
    ensures AppearedAt(SubA(), SubB(), ["subnode"], "d")
         == {["subnode", "d"], ["subnode", "d", "sub"], ["subnode", "d", "sub", "sub"]}
  {
    PathsUnderSubSub(["subnode", "d"]);
    assert ["subnode"] + ["d"] == ["subnode", "d"];
    assert ["subnode", "d"] + ["sub"] == ["subnode", "d", "sub"];
    assert ["subnode", "d"] + ["sub", "sub"] == ["subnode", "d", "sub", "sub"];
  }

  lemma AppearedSubnodeValues()
    ensures AppearedAt(SubA(), SubB(), ["subnode"], "c") == {}
    ensures AppearedAt(SubA(), SubB(), ["subnode"], "f") == {}
    ensures AppearedAt(SubA(), SubB(), ["subnode"], "g") == {}
  {
  }

  /** The subnode's added paths. */
  lemma AppearedSubnode()
    ensures Appeared(SubA(), SubB(), ["subnode"])
         == {["subnode", "a", "foo", "sub"], ["subnode", "d"], ["subnode", "d", "sub"], ["subnode", "d", "sub", "sub"]}
  {
    SubnodeKeys();
    AppearedSubnodeA();
    AppearedSubnodeB();
    AppearedSubnodeD();
    AppearedSubnodeValues();
    AppearedOfSix(SubA(), SubB(), ["subnode"], "a", "b", "c", "d", "f", "g",
                  {["subnode", "a", "foo", "sub"], ["subnode", "d"], ["subnode", "d", "sub"], ["subnode", "d", "sub", "sub"]});
  }

  /** The removed shares of the subnode keys: below `c`, which became a
      string, and all of `e`, which is gone. */
  lemma VanishedSubnodeNodes()
    ensures AppearedAt(SubB(), SubA(), ["subnode"], "a") == {}
    ensures AppearedAt(SubB(), SubA(), ["subnode"], "b") == {}
  {
    var fa: Node := map["foo" := Str("bar")];
    var fb: Node := map["foo" := Nested(map["sub" := Nested(map[])])];
    assert Appeared(fb, fa, ["subnode", "a"]) == AppearedAt(fb, fa, ["subnode", "a"], "foo");
    var ga: Node := map["someFloat" := Number("123.456")];
    var gb: Node := map["someFloat" := Number("123.4567")];
    assert Appeared(gb, ga, ["subnode", "b"]) == AppearedAt(gb, ga, ["subnode", "b"], "someFloat");
  }

  lemma VanishedSubnodeC()
    ensures AppearedAt(SubB(), SubA(), ["subnode"], "c") == {["subnode", "c", "sub"], ["subnode", "c", "sub", "sub"]}
  {
    PathsUnderSubSub(["subnode", "c"]);
    assert ["subnode"] + ["c"] == ["subnode", "c"];
    assert ["subnode", "c"] + ["sub"] == ["subnode", "c", "sub"];
    assert ["subnode", "c"] + ["sub", "sub"] == ["subnode", "c", "sub", "sub"];
  }

  lemma VanishedSubnodeE()
    ensures AppearedAt(SubB(), SubA(), ["subnode"], "e")
         == {["subnode", "e"], ["subnode", "e", "sub"], ["subnode", "e", "sub", "val"]}
  {
    var leaf: Node := map["val" := Str("string")];
    var mid: Node := map["sub" := Nested(leaf)];
    assert ["subnode"] + ["e"] == ["subnode", "e"];
    assert ["subnode", "e"] + ["sub"] == ["subnode", "e", "sub"];
    assert ["subnode", "e", "sub"] + ["val"] == ["subnode", "e", "sub", "val"];
    assert PathsUnder(leaf, ["subnode", "e", "sub"]) == Below(leaf, ["subnode", "e", "sub"], "val");
    assert PathsUnder(mid, ["subnode", "e"]) == Below(mid, ["subnode", "e"], "sub");
  }

  lemma VanishedSubnodeValues()
    ensures AppearedAt(SubB(), SubA(), ["subnode"], "f") == {}
    ensures AppearedAt(SubB(), SubA(), ["subnode"], "g") == {}
  {
  }

  /** The subnode's removed paths. */
  lemma VanishedSubnode()
    ensures Appeared(SubB(), SubA(), ["subnode"])
         == {["subnode", "c", "sub"], ["subnode", "c", "sub", "sub"],
             ["subnode", "e"], ["subnode", "e", "sub"], ["subnode", "e", "sub", "val"]}
  {
    SubnodeKeys();
    VanishedSubnodeNodes();
    VanishedSubnodeC();
    VanishedSubnodeE();
    VanishedSubnodeValues();
    AppearedOfSix(SubB(), SubA(), ["subnode"], "a", "b", "c", "e", "f", "g",
                  {["subnode", "c", "sub"], ["subnode", "c", "sub", "sub"],
                   ["subnode", "e"], ["subnode", "e", "sub"], ["subnode", "e", "sub", "val"]});
  }

  lemma TopKeys()
    ensures TreeA().Keys == TreeB().Keys == {"someString", "someNumber", "subnode"}
  {
  }

  /** The top-level keys: the string is modified, the number is equal,
      and the subnode is compared recursively. */
  lemma TopModified()
    ensures ChangedAt(TreeA(), TreeB(), [], "someString") == {["someString"]}
    ensures ChangedAt(TreeA(), TreeB(), [], "someNumber") == {}
    ensures ChangedAt(TreeA(), TreeB(), [], "subnode") == Changed(SubA(), SubB(), ["subnode"])
  {
    var root: Path := [];
    assert root + ["someString"] == ["someString"];
    assert root + ["subnode"] == ["subnode"];
  }

  lemma TopAdded()
    ensures AppearedAt(TreeA(), TreeB(), [], "someString") == {}
    ensures AppearedAt(TreeA(), TreeB(), [], "someNumber") == {}
    ensures AppearedAt(TreeA(), TreeB(), [], "subnode") == Appeared(SubA(), SubB(), ["subnode"])
  {
    var root: Path := [];
    assert root + ["subnode"] == ["subnode"];
  }

  lemma TopRemoved()
    ensures AppearedAt(TreeB(), TreeA(), [], "someString") == {}
    ensures AppearedAt(TreeB(), TreeA(), [], "someNumber") == {}
    ensures AppearedAt(TreeB(), TreeA(), [], "subnode") == Appeared(SubB(), SubA(), ["subnode"])
  {
    var root: Path := [];
    assert root + ["subnode"] == ["subnode"];
  }

  lemma ModifiedAB()
    ensures Changed(TreeA(), TreeB(), [])
         == {["someString"], ["subnode", "a", "foo"], ["subnode", "b", "someFloat"], ["subnode", "c"], ["subnode", "f"]}
  {
    TopKeys();
    TopModified();
    ChangedSubnode();
    ChangedOfThree(TreeA(), TreeB(), [], "someString", "someNumber", "subnode",
      {["someString"], ["subnode", "a", "foo"], ["subnode", "b", "someFloat"], ["subnode", "c"], ["subnode", "f"]});
  }

  lemma AddedAB()
    ensures Appeared(TreeA(), TreeB(), [])
         == {["subnode", "a", "foo", "sub"], ["subnode", "d"], ["subnode", "d", "sub"], ["subnode", "d", "sub", "sub"]}
  {
    TopKeys();
    TopAdded();
    AppearedOfThree(TreeA(), TreeB(), [], "someString", "someNumber", "subnode",
                    Appeared(SubA(), SubB(), ["subnode"]));
    AppearedSubnode();
  }

  lemma RemovedAB()
    ensures Appeared(TreeB(), TreeA(), [])
         == {["subnode", "c", "sub"], ["subnode", "c", "sub", "sub"],
             ["subnode", "e"], ["subnode", "e", "sub"], ["subnode", "e", "sub", "val"]}
  {
    TopKeys();
    TopRemoved();
    AppearedOfThree(TreeB(), TreeA(), [], "someString", "someNumber", "subnode",
                    Appeared(SubB(), SubA(), ["subnode"]));
    VanishedSubnode();
  }

  /** Comparing `A` with `B`: the string, the node replaced by a string,
      the number and the changed list are modified; what appeared below
      `a.foo` and in `d` is added; what vanished below `c` and in `e` is
      removed. The list `g`, equal on both sides, is not reported. */
  lemma CompareAB()
    ensures Compare(TreeA(), TreeB()) == Diff(
      {["someString"], ["subnode", "a", "foo"], ["subnode", "b", "someFloat"], ["subnode", "c"], ["subnode", "f"]},
      {["subnode", "a", "foo", "sub"], ["subnode", "d"], ["subnode", "d", "sub"], ["subnode", "d", "sub", "sub"]},
      {["subnode", "c", "sub"], ["subnode", "c", "sub", "sub"],
       ["subnode", "e"], ["subnode", "e", "sub"], ["subnode", "e", "sub", "val"]})
  {
    ModifiedAB();
    AddedAB();
    RemovedAB();
  }
}
